=== FILE: README.md ===
# Expense tracker: a Dafny model of the expense service and the page logic

This project models the core of a personal expense tracker in Dafny and proves
properties of that model.

**Backend.** An authenticated user records expenses and can then:
- read, change and delete them one at a time;
- list them, filtered by category and date range;
- ask for a summary: the total, the total per category, and the total per
  calendar month.

Every operation is scoped to the caller: another user's expense behaves as if it
did not exist.

**Frontend.** The React pages derive figures from the fetched list:
- the dashboard's category tabs and statistic cards;
- the layout's count, average, top category and three most recent expenses;
- the analytics page's budget figures and per-category chart;
- the sidebar's budget panel, which validates a budget and stores it in the
  browser;
- the add/edit dialog, which prefills its form, gates the submit and builds
  the request.

## How the model is organised

| file | module | models |
|---|---|---|
| `wrappers.dfy` | `Wrappers` | `Option` and `Result` |
| `seqs.dfy` | `Seqs` | The folds the code is built from, each with what it is proved to compute: sum, per-key reduce into an object, `filter`, and a stable sort by a comparison. |
| `schema.dfy` | `Schema` | The Expense document and its validators and defaults. |
| `controller.dfy` | `Expenses` | The six handlers. They work over a class `ExpenseStore` that holds the collection as a map from id to document. |
| `views.dfy` | `Views` | The expense object the pages receive, browser storage, and the reductions the pages share. |
| `dashboard.dfy`, `layout.dfy`, `chartpage.dfy`, `sidebar.dfy`, `expensemodel.dfy` | one module per component | The page logic of that component. |

Modelling choices:
- **Amounts are exact reals.** The gap between the controller's `amount > 0` check and
  the schema's `min: 0.01` is therefore visible: an amount of 0.005 is answered
  with 500, not 400.
- **Dates are an ordered `Instant`.** It has a calendar year and month. The
  current instant is a parameter, and so is the parsing of number input
  (`parse: string -> Option<real>`, where `None` stands for NaN).
- **Document ids increase in insertion order.** So the collection's natural
  order is ascending id.
- **Outcomes are pure functions.** Each handler's outcome is a pure function of
  the collection (`CreateOutcome`, `UpdateOutcome`, …). The store's methods are
  proved to return that outcome and to make exactly the matching change to the
  map.

Where the code is looser than an expense API usually is, the model follows the code:
- **An update applies every schema path the body carries.** That includes
  `owner` and `createdAt`. So a caller can hand their own expense to another
  user (`Expenses.UpdateMayReassignOwner`); neither the schema nor the
  handler makes `owner` immutable.
- **A category outside the enum is a 500, not a 400.** The same holds for an
  amount in (0, 0.01). In both cases the schema throws inside the handler's
  `try`, and the handler's catch answers 500.
- **On update, the validators run before the owner-scoped match.** So an
  invalid patch is a 500 even for an id the caller does not own.

## Model

| member | source | states |
|---|---|---|
| Schema.ParseCategory | backend/middleware/expenseModel.js:17-21 | A string is admitted by the category enum exactly when it is one of the five names, and then names the category it parses to. |
| Schema.CategoryNamesRoundTrip | backend/middleware/expenseModel.js:17-21 | Every category's name is in the enum and parses back to that category. |
| Schema.Instantiate | backend/middleware/expenseModel.js:3-31 | A new document validates iff it has an amount of at least 0.01, an enum category (or none) and an owner. Then it satisfies the schema, carries the given fields, and defaults date and createdAt to now, note to "" and category to Other. |
| Schema.ApplyPatch | backend/middleware/expenseModel.js:4-21 | An update validates iff each path it sets passes `min`/`enum`. It then sets exactly those paths, keeps every other field and the id, and keeps the document valid. |
| Expenses.OrElse | backend/controllers/taskController.js:12-13 | `s \|\| fallback` keeps a present non-empty string and yields the fallback for an absent or empty one; never "" unless the fallback is "". |
| Expenses.CreateOutcome | backend/controllers/taskController.js:3-21 | 400 iff amount missing or ≤ 0. Otherwise 500 iff amount < 0.01 or category outside the enum. On success: valid document with the next id, the caller as owner, date or now, note or "", category or Other, createdAt now. Never 404. |
| Expenses.CreateIgnoresClientOwner | backend/controllers/taskController.js:5-14 | An `owner` in the request body changes nothing; the stored owner is always the caller. |
| Expenses.TinyAmountIsServerError | backend/controllers/taskController.js:6-19 | An amount in (0, 0.01) passes the controller's check and is answered with 500. |
| Expenses.Find | backend/controllers/taskController.js:44 | The lookup succeeds iff the id is stored and belongs to the caller, and returns that document. |
| Expenses.GetOutcome | backend/controllers/taskController.js:42-52 | Returns the caller's document with that id, else 404. |
| Expenses.UpdateOutcome | backend/controllers/taskController.js:54-75 | 400 iff a present amount ≤ 0. 500 iff otherwise a path fails validation. 404 iff the patch is valid but the id is not the caller's. Success is the patched stored document. |
| Expenses.UpdateKeepsTheRest | backend/controllers/taskController.js:56-67 | An update keeps the set of ids, every other document, and every field the patch does not carry. |
| Expenses.UpdateMayReassignOwner | backend/controllers/taskController.js:56-67 | A valid patch carrying `owner` moves the caller's document to that owner, after which the caller gets 404 for it. |
| Expenses.DeleteOutcome | backend/controllers/taskController.js:77-87 | The document `findOneAndDelete` removes is the caller's document with that id, else 404 (on success the handler answers 200 with a message). |
| Expenses.OtherOwnersAreInvisible | backend/controllers/taskController.js:42-87 | Another user's document gives 404 on read and delete, an update of it fails, and the collection is unchanged. |
| Expenses.BuildFilter | backend/controllers/taskController.js:25-34 | The filter built step by step matches a document iff it is the caller's and satisfies every condition given: exact category (an empty one is absent), date ≥ start, date ≤ end. |
| Expenses.UnfilteredListIsAllOwned | backend/controllers/taskController.js:25-34 | With no conditions, exactly the caller's documents are selected. |
| Expenses.ListExpenses | backend/controllers/taskController.js:35 | The result holds exactly the stored documents the filter matches, each once, newest date first. |
| Expenses.Owned | backend/controllers/taskController.js:94 | `$match` keeps exactly the caller's stored documents. |
| Expenses.TotalSpentFacet | backend/controllers/taskController.js:97 | `totalSpent` has exactly one entry, the sum of the caller's amounts, when the caller has documents, and none otherwise; with no documents all three facets are empty. |
| Expenses.Summarize | backend/controllers/taskController.js:93-113 | The `$group` with `_id: null` yields at most one `totalSpent` entry, none exactly when the caller has no documents, and that entry is the sum of the caller's amounts. |
| Expenses.CategoryFacet | backend/controllers/taskController.js:98-101 | One entry per category the caller used, holding that category's sum, largest first. The entries add up to the overall total. |
| Expenses.MonthFacet | backend/controllers/taskController.js:102-110 | One entry per (year, month) the caller has expenses in, holding that month's sum, in ascending order. The entries add up to the overall total. |
| Expenses.MonthsStrictlyAscend | backend/controllers/taskController.js:102-110 | The month entries are strictly ascending by year, then month. |
| Expenses.ExpenseStore.CreateExpense | backend/controllers/taskController.js:3-21 | Returns the create outcome. On success the document is added under a fresh id; on failure nothing changes. The store stays valid. |
| Expenses.ExpenseStore.GetExpenseById | backend/controllers/taskController.js:42-52 | Returns the read outcome. |
| Expenses.ExpenseStore.UpdateExpense | backend/controllers/taskController.js:54-75 | Returns the update outcome. The collection becomes the post-update map (unchanged on any failure). The store stays valid. |
| Expenses.ExpenseStore.DeleteExpense | backend/controllers/taskController.js:77-87 | Returns the delete outcome. On success exactly that id is removed; otherwise nothing changes. |
| Expenses.ExpenseStore.GetExpenses | backend/controllers/taskController.js:23-40 | The list holds exactly the caller's stored documents the query selects, each once, newest first. |
| Expenses.ExpenseStore.GetSummary | backend/controllers/taskController.js:90-118 | The summary is the aggregation over exactly the caller's stored documents. |
| Views.Remaining | frontend/src/pages/ExpenseChartPage.jsx:14 | What is left of a budget is never negative. It is the difference while the budget covers the spending. |
| Dashboard.FilterOptionsAreAllAndTheCategories | frontend/src/pages/Dashboard.jsx:21 | The tabs are `all` followed by exactly the schema's five categories. |
| Dashboard.FilteredExpenses | frontend/src/pages/Dashboard.jsx:53-56 | `all` gives the list unchanged. A category gives exactly that category's expenses, with their multiplicities, in their original order. |
| Dashboard.ComputeStats | frontend/src/pages/Dashboard.jsx:31-44 | The count is the list length and totalSpent the sum of amounts. Food, Travel and Bills, read from the per-category reduce, are each the sum of that category's amounts. |
| Dashboard.MissingCategoryShowsZero | frontend/src/pages/Dashboard.jsx:40-42 | A card whose category has no expenses shows 0. |
| Dashboard.CardsMatchTabs | frontend/src/pages/Dashboard.jsx:31-56 | Each category card equals the total of that category's tab, and the Total Spent card equals the total of the `all` tab. |
| Layout.FirstArray | frontend/src/components/Layout.jsx:27-33 | Reference: the items of the first candidate that is an array (every earlier one is not), or empty when none is. |
| Layout.FetchedExpenses | frontend/src/components/Layout.jsx:27-33 | The kept list is the first array among `data`, `data.expenses`, `data.data`, else empty. |
| Layout.ListReplyIsUnwrapped | frontend/src/components/Layout.jsx:27-33 | The list handler's `{ success, expenses }` reply yields its list. |
| Layout.TotalCount | frontend/src/components/Layout.jsx:54 | The count is the number of expenses, which is also the sum of 1 per expense. |
| Layout.AverageSpent | frontend/src/components/Layout.jsx:55 | 0 for no expenses; otherwise the average times the count is the total. |
| Layout.AverageWithinAmounts | frontend/src/components/Layout.jsx:53-55 | The average lies between any lower and upper bound of the amounts. |
| Layout.CategoryCounts | frontend/src/components/Layout.jsx:56-59 | The per-category counts add up to `totalCount`. |
| Layout.CountsAreOccurrences | frontend/src/components/Layout.jsx:56-59 | The category object has one entry per category that occurs, holding the number of its expenses (not their amounts). |
| Layout.TopCategory | frontend/src/components/Layout.jsx:60 | With no expenses the top category is `None`. |
| Layout.TopCategoryIsLastMaximal | frontend/src/components/Layout.jsx:60 | Otherwise it is a category with the largest count. On a tie it is the one whose key was inserted last, because the comparison is strict. |
| Layout.RecentExpenses | frontend/src/components/Layout.jsx:137 | At most three expenses, the list's prefix of that length. |
| ChartPage.StoredBudget | frontend/src/pages/ExpenseChartPage.jsx:13 | The stored number under a key, or 0 when nothing is stored. |
| ChartPage.SidebarBudgetNeverReachesPage | frontend/src/pages/ExpenseChartPage.jsx:13 | The page as written (`Figures` with the key `budget`): after the sidebar stores a positive budget, the sidebar shows it but the page's budget stays 0, with the overview hidden and 0 percent used. |
| ChartPage.Figures | frontend/src/pages/ExpenseChartPage.jsx:12-15 | The figures with the budget read under a given key: the key `budget` is the page as written, the sidebar's `totalBudget` the corrected page of the Findings row. The budget is the stored number, or 0 when absent. Total is the sum of amounts. Remaining is never negative and is budget minus total while the budget covers it. The overview shows iff budget > 0. The used percentage is 0 without one, else total / budget in percent. |
| ChartPage.BudgetFollowsSidebar | frontend/src/pages/ExpenseChartPage.jsx:13-49 | The corrected page (`Figures` with `totalBudget`) shows the budget a reload of the sidebar shows. After the sidebar stores a positive budget, it shows that budget, its overview, and the same remaining amount as the sidebar. |
| ChartPage.UsedPercentage | frontend/src/pages/ExpenseChartPage.jsx:15 | 0 unless the budget is positive, otherwise the spent share of it in percent. |
| ChartPage.RemainingIsNeverRed | frontend/src/pages/ExpenseChartPage.jsx:98 | `remainingBudget < 0` never holds, whichever key the budget is read from, so the red style is never chosen. |
| ChartPage.Share | frontend/src/pages/ExpenseChartPage.jsx:31 | A percentage exists iff the whole is non-zero, and then it is the part's share in percent. |
| ChartPage.Slices | frontend/src/pages/ExpenseChartPage.jsx:28-32 | One slice per entry, in order, carrying its name, value and share; the values add up to the entries' total. |
| ChartPage.ChartData | frontend/src/pages/ExpenseChartPage.jsx:22-33 | One slice per entry of the per-category totals, each carrying its share of `totalExpenses`. |
| ChartPage.ChartDataFacts | frontend/src/pages/ExpenseChartPage.jsx:22-33 | Exactly one slice per category that occurs, holding that category's sum; the slices add up to `totalExpenses`. |
| Sidebar.InitialBudget | frontend/src/components/Sidebar.jsx:8-11 | The stored budget when one is stored, else 1000. |
| Sidebar.Persist | frontend/src/components/Sidebar.jsx:36 | Storing the budget changes only its own key, and a reload reads it back. |
| Sidebar.BudgetPanel.constructor | frontend/src/components/Sidebar.jsx:8-13 | The panel starts with the stored budget or 1000, shows it in the input, and has no error. |
| Sidebar.BudgetPanel.HandleBudgetChange | frontend/src/components/Sidebar.jsx:27-38 | The typed text is always kept. A number > 0 clears the error, becomes the budget and is stored. Anything else sets the error and leaves budget and storage unchanged. The shown budget stays the one a reload reads. |
| Sidebar.AcceptedBudgetSurvivesReload | frontend/src/components/Sidebar.jsx:8-36 | An accepted budget is positive and is what a fresh panel reads back. |
| Sidebar.TotalExpenses | frontend/src/components/Sidebar.jsx:15 | The sum of amounts, 0 when there is no list. |
| Sidebar.RemainingBudget | frontend/src/components/Sidebar.jsx:101 | Never negative; the budget minus the expenses while it covers them, else 0. |
| ExpenseModel.DefaultExpense | frontend/src/components/ExpenseModel.jsx:7-12 | The empty form: no id (so a submit creates), the load day, category Other, empty amount and note. |
| ExpenseModel.BeforeT | frontend/src/components/ExpenseModel.jsx:26 | The result is a prefix without `T`, followed in the input by a `T` when shorter. |
| ExpenseModel.BeforeTOfTimestamp | frontend/src/components/ExpenseModel.jsx:26 | The day part of `day + "T" + time` is `day`. |
| ExpenseModel.Prefill | frontend/src/components/ExpenseModel.jsx:22-30 | Id from `_id` and the note. The date is the stored date's text before the first `T`, or today when that text is empty. The category is the stored one, or Other when empty. The amount is the stored number, or `''` when it is 0. |
| ExpenseModel.SetField | frontend/src/components/ExpenseModel.jsx:37-43 | The named field takes the typed value and every other field, and the id, keep theirs. |
| ExpenseModel.BuildRequest | frontend/src/components/ExpenseModel.jsx:63-73 | PUT iff an id is present and non-empty, to `/{id}/gp`, else POST to `/gp`. The body is the parsed amount, date, note and category. |
| ExpenseModel.BodyNeverCarriesId | frontend/src/components/ExpenseModel.jsx:68-73 | The request body does not depend on the id. |
| ExpenseModel.EditRoundTrip | frontend/src/components/ExpenseModel.jsx:20-73 | Editing a stored expense and submitting it unchanged passes the gate. It sends a PUT for that id with its own amount, day, note and category. |
| ExpenseModel.ExpenseForm.constructor | frontend/src/components/ExpenseModel.jsx:7-17 | The form starts at `DEFAULT_EXPENSE` with no error. |
| ExpenseModel.ExpenseForm.Open | frontend/src/components/ExpenseModel.jsx:20-35 | Opening prefills from the expense to edit, or resets to `DEFAULT_EXPENSE`, and clears the error. |
| ExpenseModel.ExpenseForm.HandleChange | frontend/src/components/ExpenseModel.jsx:37-43 | Only the named field changes; the error is kept. |
| ExpenseModel.ExpenseForm.HandleSubmit | frontend/src/components/ExpenseModel.jsx:54-73 | A parsed amount ≤ 0 sets the error and sends nothing. Otherwise the error is cleared and the built request is sent. The form is unchanged. |

## Left out

- Express wiring and routing (`backend/server.js`, `backend/routes/expenseRoute.js`) are framework glue; the handlers are modelled on their own.
- The authentication middleware is not part of this model. The caller's id is a trusted parameter.
- Mongoose and MongoDB machinery is reduced to its meaning: the collection is a map and queries are functions over it. Left out: ObjectId casting, error messages, and casting errors such as an unparseable date or a non-numeric amount (each a 500).
- Floating point is not modelled; amounts are exact reals. Formatting is left out: `toFixed` and string conversion of numbers.
- `new Date(...)` on strings, `Date.now` and time zones are not modelled; dates arrive already parsed as instants.
- Browser storage holds numbers. The string round trip `num.toString()` / `parseFloat` is taken as exact, so a stored NaN cannot arise.
- React rendering, hook scheduling, loading flags, `fetch`/`axios` calls and the dialog's handling of the response are I/O. `HandleSubmit` stops at the request it would send.
- `fetchExpenses` state handling (loading, error, the 401 logout) is I/O and is not modelled; only the normalisation of `data` is.
- `frontend/src/components/ExpenseItem.jsx` is display plus HTTP calls and is not part of this model.
- Expenses.UpdateOutcome: models update bodies made of plain schema paths with present values only. The body is passed to `findOneAndUpdate` as sent (backend/controllers/taskController.js:56-66), so a body with an update operator such as `{"$inc": {"amount": -1000}}` skips both the controller's amount guard and the `min` validator, which runs on `$set`-style operators only, and could store a negative amount. JSON `null` and `""` values are not modelled either: `{"amount": null}` is a 400 because `null <= 0` holds, and `{"date": ""}` skips `new Date` and clears the stored date. The invariant `Expenses.ExpenseStore.Valid()` (every stored amount at least 0.01) is proved only for such plain-path bodies.
- Expenses.ListExpenses: the order among expenses with the same date is whatever the sort produces (natural order); the source promises no tie order, so none is stated.
- Layout.TopCategoryIsLastMaximal: assumes no expense is in a category literally named `None`. That name is the fold's starting key; server categories come from the enum, so it cannot occur.
- JavaScript object key order is taken as insertion order for category keys. This holds for non-numeric keys such as the category names.

## Findings

| source | as written | input that shows it | evidently intended | confidence | as-written member | corrected member |
|---|---|---|---|---|---|---|
| frontend/src/pages/ExpenseChartPage.jsx:13 | The page reads its budget from storage key `budget`. None of the modelled files writes that key; the sidebar stores the budget under `totalBudget` (frontend/src/components/Sidebar.jsx:36). | Empty storage; the user enters 500 in the sidebar. The page's budget is 0, the budget overview is never shown, and the used percentage is 0. | The page reads the sidebar's key `totalBudget`, and shows the budget set there. | medium, not executed | ChartPage.SidebarBudgetNeverReachesPage | ChartPage.BudgetFollowsSidebar |

=== FILE: chartpage.dfy ===
/** The analytics page (frontend/src/pages/ExpenseChartPage.jsx): the total,
    the budget and what is left of it, the used percentage and the
    per-category chart data. */
module ChartPage {
  import opened Wrappers
  import opened Seqs
  import opened Views
  import Sidebar

  /** The key the page reads its budget from, as written. */
  const ChartBudgetKey: string := "budget"

  /** `parseFloat(localStorage.getItem(key)) || 0`: the stored number, or 0
      when nothing is stored. */
  function StoredBudget(storage: Storage, key: string): (r: real)
    ensures key !in storage ==> r == 0.0
    ensures key in storage ==> r == storage[key]
  {
    if key in storage then storage[key] else 0.0
  }

  /** The sidebar stores its budget under another key, so a budget set there
      never reaches the page as written: it still shows a budget of 0, no
      overview and 0 percent used, while the sidebar shows the new budget. */
  lemma SidebarBudgetNeverReachesPage(xs: seq<ExpenseView>, storage: Storage, num: real)
    requires ChartBudgetKey !in storage
    requires num > 0.0
    ensures Sidebar.InitialBudget(Sidebar.Persist(storage, num)) == num
    ensures var f := Figures(xs, Sidebar.Persist(storage, num), ChartBudgetKey);
      f.budget == 0.0 && !f.showsOverview && f.usedPercentage == 0.0
  {
  }

  /** The overview is rendered only for a positive budget (`budget > 0 && …`). */
  predicate ShowsBudgetOverview(budget: real)
  {
    budget > 0.0
  }

  /** `budgetUsedPercentage` before `toFixed(1)`: 0 unless the budget is
      positive, otherwise the share of it spent, in percent. */
  function UsedPercentage(total: real, budget: real): (r: real)
    ensures budget <= 0.0 ==> r == 0.0
    ensures budget > 0.0 ==> r * budget == total * 100.0
  {
    if budget > 0.0 then total / budget * 100.0 else 0.0
  }

  /** `remainingBudget` is never negative, so the red-text branch of the
      Remaining line (`remainingBudget < 0`) is never taken. */
  lemma RemainingIsNeverRed(storage: Storage, xs: seq<ExpenseView>, key: string)
    ensures !(Figures(xs, storage, key).remainingBudget < 0.0)
  {
  }

  /** The budget figures of the page header and the overview. */
  datatype BudgetFigures = BudgetFigures(
    totalExpenses: real,
    budget: real,
    remainingBudget: real,
    usedPercentage: real,
    showsOverview: bool)

  /** The page's budget figures with the budget read from storage under
      `key`: `ChartBudgetKey` is the page as written, `Sidebar.BudgetKey`
      the corrected page. */
  function Figures(xs: seq<ExpenseView>, storage: Storage, key: string): (r: BudgetFigures)
    ensures r.totalExpenses == SumOf(xs, AmountOf)
    ensures key in storage ==> r.budget == storage[key]
    ensures key !in storage ==> r.budget == 0.0
    ensures r.remainingBudget >= 0.0
    ensures r.totalExpenses <= r.budget ==> r.remainingBudget + r.totalExpenses == r.budget
    ensures r.totalExpenses > r.budget ==> r.remainingBudget == 0.0
    ensures r.showsOverview <==> r.budget > 0.0
    ensures !r.showsOverview ==> r.usedPercentage == 0.0
    ensures r.showsOverview ==> r.usedPercentage * r.budget == r.totalExpenses * 100.0
  {
    var total := TotalSpent(xs);
    var budget := StoredBudget(storage, key);
    BudgetFigures(total, budget, Remaining(budget, total), UsedPercentage(total, budget), ShowsBudgetOverview(budget))
  }

  /** Reading the sidebar's key, the page shows the budget the sidebar
      shows: after a reload, and after the sidebar stores a new positive
      budget, with its overview and what is left of it. */
  lemma BudgetFollowsSidebar(xs: seq<ExpenseView>, storage: Storage, num: real)
    requires num > 0.0
    ensures Sidebar.BudgetKey in storage ==>
      Figures(xs, storage, Sidebar.BudgetKey).budget == Sidebar.InitialBudget(storage)
    ensures var f := Figures(xs, Sidebar.Persist(storage, num), Sidebar.BudgetKey);
      f.budget == num && f.showsOverview && f.remainingBudget == Sidebar.RemainingBudget(num, Some(xs))
  {
  }

  /** One chart entry; `percentage` is `None` where the division by a zero
      total gives no number. */
  datatype Slice = Slice(name: string, value: real, percentage: Option<real>)

  function SliceValue(s: Slice): real { s.value }

  /** `total / whole * 100`, undefined for a zero whole. */
  function Share(part: real, whole: real): (r: Option<real>)
    ensures r.Some? <==> whole != 0.0
    ensures r.Some? ==> r.value * whole == part * 100.0
  {
    if whole == 0.0 then None else Some(part / whole * 100.0)
  }

  /** `Object.entries(totals).map(...)`: one slice per entry, in order. */
  function Slices(t: seq<(string, real)>, whole: real): (r: seq<Slice>)
    ensures |r| == |t|
    ensures forall i :: 0 <= i < |t| ==> r[i] == Slice(t[i].0, t[i].1, Share(t[i].1, whole))
    ensures SumOf(r, SliceValue) == SumOf(t, Value)
    decreases |t|
  {
    if t == [] then []
    else
      var r := [Slice(t[0].0, t[0].1, Share(t[0].1, whole))] + Slices(t[1..], whole);
      assert r[1..] == Slices(t[1..], whole);
      r
  }

  /** `chartData`: one slice per entry of the per-category totals, each
      with its share of the total spent. */
  function ChartData(xs: seq<ExpenseView>): (r: seq<Slice>)
    ensures |r| == |CategoryTotals(xs)|
    ensures forall i :: 0 <= i < |r| ==> r[i].percentage == Share(r[i].value, TotalSpent(xs))
  {
    Slices(CategoryTotals(xs), TotalSpent(xs))
  }

  /** The slices' names, in order. */
  function Names(d: seq<Slice>): (r: seq<string>)
    ensures |r| == |d|
    ensures forall i :: 0 <= i < |d| ==> r[i] == d[i].name
  {
    if d == [] then [] else [d[0].name] + Names(d[1..])
  }

  /** The chart has one slice per category that occurs, each holding that
      category's total; the slices add up to `totalExpenses`. */
  lemma ChartDataFacts(xs: seq<ExpenseView>)
    ensures var d := ChartData(xs);
      && (forall i, j :: 0 <= i < j < |d| ==> d[i].name != d[j].name)
      && (forall c :: c in Names(d) <==> exists x :: x in xs && x.category == c)
      && (forall i :: 0 <= i < |d| ==> d[i].value == SumWhere(xs, CategoryOf, d[i].name, AmountOf))
      && (forall i :: 0 <= i < |d| ==> d[i].percentage == Share(d[i].value, TotalSpent(xs)))
      && SumOf(d, SliceValue) == TotalSpent(xs)
  {
    var t := CategoryTotals(xs);
    var d := ChartData(xs);
    TallyFacts(xs, CategoryOf, AmountOf);
    assert Names(d) == KeysOf(t);
    forall i, j | 0 <= i < j < |d| ensures d[i].name != d[j].name {
      assert d[i].name == Key(t[i]) && d[j].name == Key(t[j]);
    }
    forall i | 0 <= i < |d| ensures d[i].value == SumWhere(xs, CategoryOf, d[i].name, AmountOf) {
      assert t[i] in t;
    }
  }
}

=== FILE: controller.dfy ===
/** The expense handlers (backend/controllers/taskController.js) over an
    in-memory collection: create, read by id, update, delete, the filtered
    list and the summary report. The authenticated user (`req.user._id`) and
    the current instant are parameters; every handler is scoped to that user. */
module Expenses {
  import opened Wrappers
  import opened Seqs
  import opened Schema

  /** The failure responses: 400 (the controller's own amount check), 404 (no
      document with that id belongs to the caller) and 500 (anything thrown
      inside the handler, here a schema validator rejecting the document). */
  datatype HttpError = BadRequest | NotFound | ServerError

  function StatusCode(e: HttpError): nat
  {
    match e
    case BadRequest => 400
    case NotFound => 404
    case ServerError => 500
  }

  /* ---------------------------------------------------------------------- */
  /* Create                                                                   */
  /* ---------------------------------------------------------------------- */

  /** The request body of a create. An absent or empty `date`, `note` or
      `category` is `None` or `""`; a client-sent `owner` is carried only to
      show that it is ignored. */
  datatype CreateBody = CreateBody(
    amount: Option<real>,
    date: Option<Instant>,
    note: Option<string>,
    category: Option<string>,
    owner: Option<OwnerId>)

  /** `s || fallback` on a string that may be absent: the empty string is falsy. */
  function OrElse(s: Option<string>, fallback: string): (r: string)
    ensures r == fallback || (s.Some? && r == s.value)
    ensures r != "" || fallback == ""
    ensures s.Some? && s.value != "" ==> r == s.value
    ensures s.None? || s.value == "" ==> r == fallback
  {
    if s.Some? && s.value != "" then s.value else fallback
  }

  /** The controller's own guard `!amount || amount <= 0`. */
  predicate RejectsAmount(amount: Option<real>)
  {
    amount.None? || amount.value <= 0.0
  }

  /** The document `createExpense` hands to the schema: the body's amount, the
      date or `now`, the note or `""`, the category or `"Other"`, and the
      caller as owner; `createdAt` is left to its default. */
  function CreateDraft(owner: OwnerId, body: CreateBody, now: Instant): Draft
  {
    Draft(body.amount, Some(body.date.GetOr(now)), Some(OrElse(body.note, "")),
          Some(OrElse(body.category, "Other")), Some(owner), None)
  }

  /** What `createExpense` answers, given the id the store assigns next. */
  function CreateOutcome(owner: OwnerId, body: CreateBody, now: Instant, id: Id): (r: Result<Expense, HttpError>)
    ensures r == Failure(BadRequest) <==> RejectsAmount(body.amount)
    ensures r == Failure(ServerError) <==>
      && !RejectsAmount(body.amount)
      && (body.amount.value < MinAmount || OrElse(body.category, "Other") !in CategoryNames)
    ensures r != Failure(NotFound)
    ensures r.Success? ==>
      && Conforms(r.value)
      && r.value.id == id
      && r.value.owner == owner
      && r.value.amount == body.amount.value
      && r.value.date == body.date.GetOr(now)
      && r.value.note == OrElse(body.note, "")
      && CategoryName(r.value.category) == OrElse(body.category, "Other")
      && r.value.createdAt == now
  {
    if RejectsAmount(body.amount) then Failure(BadRequest)
    else
      match Instantiate(id, CreateDraft(owner, body, now), now)
      case Success(e) => Success(e)
      case Failure(_) => Failure(ServerError)
  }

  /** The owner a client puts in the body has no effect on what is stored. */
  lemma CreateIgnoresClientOwner(owner: OwnerId, body: CreateBody, now: Instant, id: Id, claimed: OwnerId)
    ensures CreateOutcome(owner, body.(owner := Some(claimed)), now, id) == CreateOutcome(owner, body, now, id)
    ensures CreateOutcome(owner, body, now, id).Success? ==> CreateOutcome(owner, body, now, id).value.owner == owner
  {
  }

  /** An amount in (0, 0.01) passes the controller's check but not the
      schema's `min`, so it is answered with 500 instead of 400. */
  lemma TinyAmountIsServerError(owner: OwnerId, body: CreateBody, now: Instant, id: Id)
    requires body.amount.Some? && 0.0 < body.amount.value < MinAmount
    ensures CreateOutcome(owner, body, now, id) == Failure(ServerError)
    ensures StatusCode(CreateOutcome(owner, body, now, id).error) == 500
  {
  }

  /* ---------------------------------------------------------------------- */
  /* Read, update and delete by id                                            */
  /* ---------------------------------------------------------------------- */

  /** `findOne({ _id: id, owner })`: the document with that id, provided it is
      the caller's. */
  function Find(records: map<Id, Expense>, id: Id, owner: OwnerId): (r: Option<Expense>)
    ensures r.Some? <==> id in records && records[id].owner == owner
    ensures r.Some? ==> r.value == records[id] && r.value.owner == owner
  {
    if id in records && records[id].owner == owner then Some(records[id]) else None
  }

  /** What `getExpenseById` answers. */
  function GetOutcome(records: map<Id, Expense>, id: Id, owner: OwnerId): (r: Result<Expense, HttpError>)
    ensures r.Success? <==> id in records && records[id].owner == owner
    ensures r.Success? ==> r.value == records[id]
    ensures r.Failure? ==> r.error == NotFound
  {
    match Find(records, id, owner)
    case Some(e) => Success(e)
    case None => Failure(NotFound)
  }

  /** The controller's own guard on updates, `amount !== undefined && amount <= 0`. */
  predicate RejectsPatchAmount(p: Patch)
  {
    p.amount.Some? && p.amount.value <= 0.0
  }

  /** What `updateExpense` answers: the updated document. The controller's
      guard comes first; the update validators run before the owner-scoped
      match, so an invalid patch is a 500 even for an id the caller does not
      own. */
  function UpdateOutcome(records: map<Id, Expense>, id: Id, owner: OwnerId, p: Patch): (r: Result<Expense, HttpError>)
    ensures r == Failure(BadRequest) <==> RejectsPatchAmount(p)
    ensures r == Failure(ServerError) <==> !RejectsPatchAmount(p) && !PatchValid(p)
    ensures r == Failure(NotFound) <==> PatchValid(p) && !(id in records && records[id].owner == owner)
    ensures r.Success? ==> id in records && ApplyPatch(records[id], p) == Success(r.value)
  {
    if RejectsPatchAmount(p) then Failure(BadRequest)
    else if !PatchValid(p) then Failure(ServerError)
    else
      match Find(records, id, owner)
      case None => Failure(NotFound)
      case Some(e) =>
        match ApplyPatch(e, p)
        case Success(u) => Success(u)
        case Failure(_) => Failure(ServerError)
  }

  /** The collection after an update: the document is replaced on success and
      nothing changes otherwise. */
  function AfterUpdate(records: map<Id, Expense>, id: Id, owner: OwnerId, p: Patch): map<Id, Expense>
  {
    match UpdateOutcome(records, id, owner, p)
    case Success(u) => records[id := u]
    case Failure(_) => records
  }

  /** An update leaves every path it does not carry, and every other document,
      as it was. */
  lemma UpdateKeepsTheRest(records: map<Id, Expense>, id: Id, owner: OwnerId, p: Patch)
    ensures AfterUpdate(records, id, owner, p).Keys == records.Keys
    ensures forall k :: k in records && k != id ==> AfterUpdate(records, id, owner, p)[k] == records[k]
    ensures UpdateOutcome(records, id, owner, p).Success? ==>
      var before, after := records[id], AfterUpdate(records, id, owner, p)[id];
      && after.id == before.id
      && (p.amount.None? ==> after.amount == before.amount)
      && (p.date.None? ==> after.date == before.date)
      && (p.note.None? ==> after.note == before.note)
      && (p.category.None? ==> after.category == before.category)
      && (p.owner.None? ==> after.owner == before.owner)
      && (p.createdAt.None? ==> after.createdAt == before.createdAt)
  {
    if UpdateOutcome(records, id, owner, p).Success? {
      var before, after := records[id], AfterUpdate(records, id, owner, p)[id];
      if p.category.None? {
        CategoryNamesRoundTrip(before.category);
        CategoryNamesRoundTrip(after.category);
      }
    }
  }

  /** The update passes the body through, so a caller can hand one of their
      documents to another user (an `owner` path in the patch is applied). */
  lemma UpdateMayReassignOwner(records: map<Id, Expense>, id: Id, owner: OwnerId, other: OwnerId, p: Patch)
    requires id in records && records[id].owner == owner
    requires PatchValid(p) && p.owner == Some(other)
    ensures UpdateOutcome(records, id, owner, p).Success?
    ensures AfterUpdate(records, id, owner, p)[id].owner == other
    ensures other != owner ==> GetOutcome(AfterUpdate(records, id, owner, p), id, owner) == Failure(NotFound)
  {
  }

  /** The document `findOneAndDelete` removes, or 404; the handler itself then
      answers 200 with a message. The match is on the same (id, owner) pair as
      the read, so the outcome is the read's; the removal itself is
      `ExpenseStore.DeleteExpense`'s part. */
  function DeleteOutcome(records: map<Id, Expense>, id: Id, owner: OwnerId): (r: Result<Expense, HttpError>)
    ensures r.Success? <==> id in records && records[id].owner == owner
    ensures r.Success? ==> r.value == records[id]
    ensures r.Failure? ==> r.error == NotFound
  {
    GetOutcome(records, id, owner)
  }

  /** A document that is not the caller's can be neither read, changed nor
      deleted by them: each answer is 404 (or the update's own 400 and 500). */
  lemma OtherOwnersAreInvisible(records: map<Id, Expense>, id: Id, caller: OwnerId, p: Patch)
    requires id in records && records[id].owner != caller
    ensures GetOutcome(records, id, caller) == Failure(NotFound)
    ensures DeleteOutcome(records, id, caller) == Failure(NotFound)
    ensures UpdateOutcome(records, id, caller, p).Failure?
    ensures AfterUpdate(records, id, caller, p) == records
  {
  }

  /* ---------------------------------------------------------------------- */
  /* The stored collection in natural order                                   */
  /* ---------------------------------------------------------------------- */

  /** Every document is stored under its own id. */
  ghost predicate WellKeyed(records: map<Id, Expense>)
  {
    forall k :: k in records ==> records[k].id == k
  }

  function IdOf(e: Expense): Id { e.id }

  /** The documents with an id below `bound`, in ascending id (natural) order. */
  function Documents(records: map<Id, Expense>, bound: nat): (r: seq<Expense>)
    requires WellKeyed(records)
    ensures forall e :: e in r <==> e in records.Values && e.id < bound
    ensures forall i, j :: 0 <= i < j < |r| ==> r[i].id < r[j].id
    decreases bound
  {
    if bound == 0 then []
    else
      var earlier := Documents(records, bound - 1);
      if bound - 1 in records then earlier + [records[bound - 1]] else earlier
  }

  lemma DocumentsDistinct(records: map<Id, Expense>, bound: nat)
    requires WellKeyed(records)
    ensures DistinctBy(Documents(records, bound), IdOf)
  {
    var d := Documents(records, bound);
    forall i, j | 0 <= i < j < |d| ensures IdOf(d[i]) != IdOf(d[j]) {
      assert d[i].id < d[j].id;
    }
  }

  /* ---------------------------------------------------------------------- */
  /* List                                                                     */
  /* ---------------------------------------------------------------------- */

  /** The query string of a list request; an absent or empty parameter is
      `None`, and the two dates are already read as instants. */
  datatype ListQuery = ListQuery(category: Option<string>, startDate: Option<Instant>, endDate: Option<Instant>)

  datatype DateRange = DateRange(gte: Option<Instant>, lte: Option<Instant>)

  /** The filter document handed to `find`. */
  datatype FindFilter = FindFilter(owner: OwnerId, category: Option<string>, date: Option<DateRange>)

  predicate InRange(r: DateRange, d: Instant)
  {
    && (r.gte.Some? ==> NotAfter(r.gte.value, d))
    && (r.lte.Some? ==> NotAfter(d, r.lte.value))
  }

  /** A document matches a filter when every condition it carries holds. */
  predicate Accepts(f: FindFilter, e: Expense)
  {
    && e.owner == f.owner
    && (f.category.Some? ==> CategoryName(e.category) == f.category.value)
    && (f.date.Some? ==> InRange(f.date.value, e.date))
  }

  /** What a list request asks for: the caller's documents, of the given
      category when one is given, dated on or after `startDate` and on or
      before `endDate` when those are given. */
  predicate Selected(owner: OwnerId, q: ListQuery, e: Expense)
  {
    && e.owner == owner
    && (q.category.Some? && q.category.value != "" ==> CategoryName(e.category) == q.category.value)
    && (q.startDate.Some? ==> NotAfter(q.startDate.value, e.date))
    && (q.endDate.Some? ==> NotAfter(e.date, q.endDate.value))
  }

  /** The filter as a predicate on documents. */
  function Matches(f: FindFilter): Expense -> bool
  {
    (e: Expense) => Accepts(f, e)
  }

  /** Builds the filter of `getExpenses` condition by condition. */
  method BuildFilter(owner: OwnerId, q: ListQuery) returns (f: FindFilter)
    ensures f.owner == owner
    ensures forall e :: Accepts(f, e) <==> Selected(owner, q, e)
  {
    f := FindFilter(owner, None, None);
    if q.category.Some? && q.category.value != "" {
      f := f.(category := q.category);
    }
    if q.startDate.Some? || q.endDate.Some? {
      var range := DateRange(None, None);
      if q.startDate.Some? {
        range := range.(gte := q.startDate);
      }
      if q.endDate.Some? {
        range := range.(lte := q.endDate);
      }
      f := f.(date := Some(range));
    }
  }

  /** `sort({ date: -1 })`: a document precedes another that is not later. */
  predicate NewestFirst(a: Expense, b: Expense)
  {
    NotAfter(b.date, a.date)
  }

  lemma NewestFirstIsTotalPreorder()
    ensures TotalPreorder(NewestFirst)
  {
  }

  /** `find(filter).sort({ date: -1 })` over the documents with an id below
      `bound`: each matching document once, newest first. */
  function ListExpenses(records: map<Id, Expense>, bound: nat, f: FindFilter): (r: seq<Expense>)
    requires WellKeyed(records)
    ensures forall e :: e in r <==> e in records.Values && e.id < bound && Accepts(f, e)
    ensures DistinctBy(r, IdOf)
    ensures SortedBy(r, NewestFirst)
  {
    var matching := Filter(Documents(records, bound), Matches(f));
    ListFacts(records, bound, f, matching);
    SortBy(matching, NewestFirst)
  }

  lemma ListFacts(records: map<Id, Expense>, bound: nat, f: FindFilter, matching: seq<Expense>)
    requires WellKeyed(records)
    requires matching == Filter(Documents(records, bound), Matches(f))
    ensures forall e :: e in SortBy(matching, NewestFirst) <==> e in records.Values && e.id < bound && Accepts(f, e)
    ensures DistinctBy(SortBy(matching, NewestFirst), IdOf)
    ensures SortedBy(SortBy(matching, NewestFirst), NewestFirst)
  {
    var docs := Documents(records, bound);
    var r := SortBy(matching, NewestFirst);
    forall e ensures e in r <==> e in records.Values && e.id < bound && Accepts(f, e) {
      calc {
        e in r;
        e in multiset(r);
        e in multiset(matching);
        e in matching;
      }
    }
    DocumentsDistinct(records, bound);
    FilterDistinct(docs, Matches(f), IdOf);
    SortByDistinct(matching, NewestFirst, IdOf);
    NewestFirstIsTotalPreorder();
    SortBySorted(matching, NewestFirst);
  }

  /** With no parameters the list is every document of the caller's. */
  lemma UnfilteredListIsAllOwned(owner: OwnerId, e: Expense)
    ensures Selected(owner, ListQuery(None, None, None), e) <==> e.owner == owner
    ensures Selected(owner, ListQuery(Some(""), None, None), e) <==> e.owner == owner
  {
  }

  /* ---------------------------------------------------------------------- */
  /* Summary                                                                  */
  /* ---------------------------------------------------------------------- */

  /** The `{ year, month }` group key of `byMonth`. */
  datatype Month = Month(year: int, month: int)

  function CategoryOf(e: Expense): Category { e.category }
  function AmountOf(e: Expense): real { e.amount }
  function MonthOf(e: Expense): Month { Month(e.date.year, e.date.month) }

  /** `$sort: { total: -1 }`. */
  predicate LargerTotalFirst(a: (Category, real), b: (Category, real))
  {
    a.1 >= b.1
  }

  /** `$sort: { "_id.year": 1, "_id.month": 1 }`. */
  predicate EarlierMonthFirst(a: (Month, real), b: (Month, real))
  {
    a.0.year < b.0.year || (a.0.year == b.0.year && a.0.month <= b.0.month)
  }

  lemma SummaryOrdersAreTotalPreorders()
    ensures TotalPreorder(LargerTotalFirst)
    ensures TotalPreorder(EarlierMonthFirst)
  {
  }

  /** The three facets; `totalSpent` has one entry, or none when the caller
      has no documents. */
  datatype Summary = Summary(
    totalSpent: seq<real>,
    byCategory: seq<(Category, real)>,
    byMonth: seq<(Month, real)>)

  /** `$match: { owner }` over the documents with an id below `bound`. */
  function Owned(records: map<Id, Expense>, bound: nat, owner: OwnerId): (r: seq<Expense>)
    requires WellKeyed(records)
    ensures forall e :: e in r <==> e in records.Values && e.id < bound && e.owner == owner
  {
    Filter(Documents(records, bound), (e: Expense) => e.owner == owner)
  }

  /** The aggregation of `getSummary`. */
  function Summarize(records: map<Id, Expense>, bound: nat, owner: OwnerId): (r: Summary)
    requires WellKeyed(records)
    ensures |r.totalSpent| <= 1
    ensures r.totalSpent == [] <==> Owned(records, bound, owner) == []
    ensures forall t :: t in r.totalSpent ==> t == SumOf(Owned(records, bound, owner), AmountOf)
  {
    var owned := Owned(records, bound, owner);
    Summary(
      if owned == [] then [] else [SumOf(owned, AmountOf)],
      SortBy(Tally(owned, CategoryOf, AmountOf), LargerTotalFirst),
      SortBy(Tally(owned, MonthOf, AmountOf), EarlierMonthFirst))
  }

  /** `totalSpent`: one entry, the sum of the caller's amounts, or none when
      the caller has no documents. */
  lemma TotalSpentFacet(records: map<Id, Expense>, bound: nat, owner: OwnerId)
    requires WellKeyed(records)
    ensures var s, owned := Summarize(records, bound, owner), Owned(records, bound, owner);
      && (s.totalSpent == [] <==> owned == [])
      && |s.totalSpent| == (if owned == [] then 0 else 1)
      && (forall t :: t in s.totalSpent ==> t == SumOf(owned, AmountOf))
      && (owned == [] ==> s == Summary([], [], []))
  {
  }

  /** `byCategory`: each category the caller used, once, with the sum of its
      amounts, largest total first; the totals add up to the overall total. */
  lemma {:induction false} CategoryFacet(records: map<Id, Expense>, bound: nat, owner: OwnerId)
    requires WellKeyed(records)
    ensures var g, owned := Summarize(records, bound, owner).byCategory, Owned(records, bound, owner);
      && DistinctBy(g, Key)
      && (forall c :: c in KeysOf(g) <==> exists e :: e in owned && CategoryOf(e) == c)
      && (forall p :: p in g ==> p.1 == SumWhere(owned, CategoryOf, p.0, AmountOf))
      && SortedBy(g, LargerTotalFirst)
      && SumOf(g, Value) == SumOf(owned, AmountOf)
  {
    assert TotalPreorder(LargerTotalFirst) by {
      SummaryOrdersAreTotalPreorders();
    }
    SortedTallyFacts(Owned(records, bound, owner), CategoryOf, AmountOf, LargerTotalFirst);
  }

  /** `byMonth`: each (year, month) the caller has a document in, once, with
      the sum of its amounts, earliest first; the totals add up to the
      overall total. */
  lemma {:induction false} MonthFacet(records: map<Id, Expense>, bound: nat, owner: OwnerId)
    requires WellKeyed(records)
    ensures var g, owned := Summarize(records, bound, owner).byMonth, Owned(records, bound, owner);
      && DistinctBy(g, Key)
      && (forall m :: m in KeysOf(g) <==> exists e :: e in owned && MonthOf(e) == m)
      && (forall p :: p in g ==> p.1 == SumWhere(owned, MonthOf, p.0, AmountOf))
      && SortedBy(g, EarlierMonthFirst)
      && SumOf(g, Value) == SumOf(owned, AmountOf)
  {
    assert TotalPreorder(EarlierMonthFirst) by {
      SummaryOrdersAreTotalPreorders();
    }
    SortedTallyFacts(Owned(records, bound, owner), MonthOf, AmountOf, EarlierMonthFirst);
  }

  /** Distinct month keys in ascending order are strictly ascending. */
  lemma {:induction false} MonthsStrictlyAscend(records: map<Id, Expense>, bound: nat, owner: OwnerId)
    requires WellKeyed(records)
    ensures var ms := Summarize(records, bound, owner).byMonth;
      forall i, j :: 0 <= i < j < |ms| ==>
        ms[i].0.year < ms[j].0.year || (ms[i].0.year == ms[j].0.year && ms[i].0.month < ms[j].0.month)
  {
    MonthFacet(records, bound, owner);
    var ms := Summarize(records, bound, owner).byMonth;
    forall i, j | 0 <= i < j < |ms|
      ensures ms[i].0.year < ms[j].0.year || (ms[i].0.year == ms[j].0.year && ms[i].0.month < ms[j].0.month)
    {
      assert EarlierMonthFirst(ms[i], ms[j]);
      assert Key(ms[i]) != Key(ms[j]);
    }
  }

  /* ---------------------------------------------------------------------- */
  /* The collection                                                           */
  /* ---------------------------------------------------------------------- */

  /** The expenses collection: the stored documents by id, and the id the
      next insert receives. */
  class ExpenseStore {
    var records: map<Id, Expense>
    var nextId: Id

    /** Every document sits under its own id, below the next id, and
        satisfies the schema. */
    ghost predicate Valid()
      reads this
    {
      forall k :: k in records ==> records[k].id == k && k < nextId && Conforms(records[k])
    }

    constructor()
      ensures Valid() && records == map[] && nextId == 0
    {
      records := map[];
      nextId := 0;
    }

    /** `createExpense`: on success the new document is stored under a fresh id. */
    method CreateExpense(owner: OwnerId, body: CreateBody, now: Instant) returns (res: Result<Expense, HttpError>)
      requires Valid()
      modifies this
      ensures Valid()
      ensures res == CreateOutcome(owner, body, now, old(nextId))
      ensures res.Success? ==> old(nextId) !in old(records) && records == old(records)[old(nextId) := res.value] && nextId == old(nextId) + 1
      ensures res.Failure? ==> records == old(records) && nextId == old(nextId)
    {
      res := CreateOutcome(owner, body, now, nextId);
      if res.Success? {
        records := records[nextId := res.value];
        nextId := nextId + 1;
      }
    }

    /** `getExpenseById`. */
    method GetExpenseById(id: Id, owner: OwnerId) returns (res: Result<Expense, HttpError>)
      ensures res == GetOutcome(records, id, owner)
    {
      res := GetOutcome(records, id, owner);
    }

    /** `updateExpense`: on success the document is replaced by its updated
        version; otherwise the collection is unchanged. */
    method UpdateExpense(id: Id, owner: OwnerId, p: Patch) returns (res: Result<Expense, HttpError>)
      requires Valid()
      modifies this
      ensures Valid() && nextId == old(nextId)
      ensures res == UpdateOutcome(old(records), id, owner, p)
      ensures records == AfterUpdate(old(records), id, owner, p)
    {
      res := UpdateOutcome(records, id, owner, p);
      if res.Success? {
        records := records[id := res.value];
      }
    }

    /** `deleteExpense`: on success the document is removed. */
    method DeleteExpense(id: Id, owner: OwnerId) returns (res: Result<Expense, HttpError>)
      requires Valid()
      modifies this
      ensures Valid() && nextId == old(nextId)
      ensures res == DeleteOutcome(old(records), id, owner)
      ensures records == if res.Success? then old(records) - {id} else old(records)
    {
      res := DeleteOutcome(records, id, owner);
      if res.Success? {
        records := records - {id};
      }
    }

    /** `getExpenses`: the caller's documents selected by the query, each
        once, newest first. */
    method GetExpenses(owner: OwnerId, q: ListQuery) returns (expenses: seq<Expense>)
      requires Valid()
      ensures forall e :: e in expenses <==> e in records.Values && Selected(owner, q, e)
      ensures DistinctBy(expenses, IdOf)
      ensures SortedBy(expenses, NewestFirst)
    {
      var filter := BuildFilter(owner, q);
      expenses := ListExpenses(records, nextId, filter);
      forall e | e in records.Values ensures e.id < nextId {
        var k :| k in records && records[k] == e;
      }
    }

    /** `getSummary`. */
    method GetSummary(owner: OwnerId) returns (s: Summary)
      requires Valid()
      ensures s == Summarize(records, nextId, owner)
      ensures forall e :: e in Owned(records, nextId, owner) <==> e in records.Values && e.owner == owner
    {
      s := Summarize(records, nextId, owner);
      forall e | e in records.Values ensures e.id < nextId {
        var k :| k in records && records[k] == e;
      }
    }
  }
}

=== FILE: dashboard.dfy ===
/** The pure logic of the dashboard page (frontend/src/pages/Dashboard.jsx):
    the category tabs, the tab filter and the statistic cards. */
module Dashboard {
  import opened Seqs
  import opened Views
  import Schema

  /** The tabs, `all` first. */
  const FilterOptions: seq<string> := ["all", "Food", "Travel", "Bills", "Entertainment", "Other"]

  /** The tabs are `all` and exactly the schema's categories, in enum order. */
  lemma FilterOptionsAreAllAndTheCategories()
    ensures FilterOptions == ["all"] + Schema.CategoryNames
    ensures "all" !in Schema.CategoryNames
  {
  }

  /** `filteredExpenses`: every expense under `all`, otherwise the expenses of
      the chosen category, in their original order. */
  function FilteredExpenses(xs: seq<ExpenseView>, filter: string): (r: seq<ExpenseView>)
    ensures filter == "all" ==> r == xs
    ensures filter != "all" ==> forall x :: x in r <==> x in xs && x.category == filter
    ensures filter != "all" ==> forall x :: multiset(r)[x] == if x.category == filter then multiset(xs)[x] else 0
    ensures filter != "all" ==> SubsequenceOf(r, xs)
  {
    if filter == "all" then xs else Filter(xs, InCategory(filter))
  }

  /** The statistic cards before `toFixed(2)` formatting. */
  datatype Stats = Stats(total: nat, totalSpent: real, food: real, travel: real, bills: real)

  /** `stats`: the count, the total, and the Food, Travel and Bills totals read
      from the per-category reduce (`byCategory.Food || 0`). */
  function ComputeStats(xs: seq<ExpenseView>): (r: Stats)
    ensures r.total == |xs|
    ensures r.totalSpent == SumOf(xs, AmountOf)
    ensures r.food == SumWhere(xs, CategoryOf, "Food", AmountOf)
    ensures r.travel == SumWhere(xs, CategoryOf, "Travel", AmountOf)
    ensures r.bills == SumWhere(xs, CategoryOf, "Bills", AmountOf)
  {
    var byCategory := CategoryTotals(xs);
    TallyFacts(xs, CategoryOf, AmountOf);
    Stats(|xs|, TotalSpent(xs), Lookup(byCategory, "Food"), Lookup(byCategory, "Travel"), Lookup(byCategory, "Bills"))
  }

  /** A card whose category has no expenses shows 0. */
  lemma MissingCategoryShowsZero(xs: seq<ExpenseView>)
    ensures (forall x :: x in xs ==> x.category != "Food") ==> ComputeStats(xs).food == 0.0
    ensures (forall x :: x in xs ==> x.category != "Travel") ==> ComputeStats(xs).travel == 0.0
    ensures (forall x :: x in xs ==> x.category != "Bills") ==> ComputeStats(xs).bills == 0.0
  {
    if forall x :: x in xs ==> x.category != "Food" {
      SumWhereAbsent(xs, CategoryOf, "Food", AmountOf);
    }
    if forall x :: x in xs ==> x.category != "Travel" {
      SumWhereAbsent(xs, CategoryOf, "Travel", AmountOf);
    }
    if forall x :: x in xs ==> x.category != "Bills" {
      SumWhereAbsent(xs, CategoryOf, "Bills", AmountOf);
    }
  }

  /** A category card shows the total of that category's tab, and the `all`
      tab adds up to the Total Spent card. */
  lemma CardsMatchTabs(xs: seq<ExpenseView>)
    ensures TotalSpent(FilteredExpenses(xs, "Food")) == ComputeStats(xs).food
    ensures TotalSpent(FilteredExpenses(xs, "Travel")) == ComputeStats(xs).travel
    ensures TotalSpent(FilteredExpenses(xs, "Bills")) == ComputeStats(xs).bills
    ensures TotalSpent(FilteredExpenses(xs, "all")) == ComputeStats(xs).totalSpent
  {
    SumOfFilter(xs, CategoryOf, "Food", AmountOf, InCategory("Food"));
    SumOfFilter(xs, CategoryOf, "Travel", AmountOf, InCategory("Travel"));
    SumOfFilter(xs, CategoryOf, "Bills", AmountOf, InCategory("Bills"));
  }
}

=== FILE: expensemodel.dfy ===
/** The add/edit expense dialog (frontend/src/components/ExpenseModel.jsx):
    the form state, its prefill when the dialog opens, field edits, and the
    submit gate with the request it sends. */
module ExpenseModel {
  import opened Wrappers
  import opened Views

  /** A form value: `amount` holds text, or a number after a prefill. */
  datatype FormValue = Text(text: string) | Number(n: real)

  /** The form state `expenseData`; `id` is set only by an edit prefill. */
  datatype FormData = FormData(amount: FormValue, date: string, note: string, category: string, id: Option<string>)

  /** The `name`s of the dialog's inputs. */
  datatype Field = Amount | Date | Note | Category

  /** `DEFAULT_EXPENSE`: empty amount and note, category Other, and the day
      the module was loaded. */
  function DefaultExpense(loadDay: string): (r: FormData)
    ensures r.id == None && !IsEdit(r) && r.date == loadDay && r.category == "Other"
    ensures r.amount == Text("") && r.note == ""
  {
    FormData(Text(""), loadDay, "", "Other", None)
  }

  /** `s.split('T')[0]`: the text before the first `T`, or all of it. */
  function BeforeT(s: string): (r: string)
    ensures r <= s
    ensures 'T' !in r
    ensures |r| < |s| ==> s[|r|] == 'T'
    decreases |s|
  {
    if s == [] || s[0] == 'T' then [] else [s[0]] + BeforeT(s[1..])
  }

  /** The day part of an ISO timestamp `day + "T" + time` is `day`. */
  lemma {:induction false} BeforeTOfTimestamp(day: string, time: string)
    requires 'T' !in day
    ensures BeforeT(day + "T" + time) == day
    decreases |day|
  {
    var s := day + "T" + time;
    if day == [] {
      assert s[0] == 'T';
    } else {
      assert s[0] == day[0] && day[0] != 'T';
      assert s[1..] == day[1..] + "T" + time;
      BeforeTOfTimestamp(day[1..], time);
    }
  }

  /** The edit prefill: the amount (`|| ''`), the date's day part or today,
      the note, the category or Other, and the id from `_id`. */
  function Prefill(e: ExpenseView, today: string): (r: FormData)
    ensures r.id == Some(e.id)
    ensures r.note == e.note
    ensures r.date == today || (r.date != "" && r.date <= e.date && 'T' !in r.date)
    ensures r.date == (if BeforeT(e.date) == "" then today else BeforeT(e.date))
    ensures r.category != ""
    ensures r.category == (if e.category == "" then "Other" else e.category)
    ensures r.amount == (if e.amount == 0.0 then Text("") else Number(e.amount))
  {
    var day := BeforeT(e.date);
    FormData(
      if e.amount == 0.0 then Text("") else Number(e.amount),
      if day == "" then today else day,
      e.note,
      if e.category == "" then "Other" else e.category,
      Some(e.id))
  }

  /** A form field read back as a value. */
  function FieldValue(d: FormData, f: Field): FormValue
  {
    match f
    case Amount => d.amount
    case Date => Text(d.date)
    case Note => Text(d.note)
    case Category => Text(d.category)
  }

  /** `handleChange`: `{ ...prev, [name]: value }`. */
  function SetField(d: FormData, f: Field, value: string): (r: FormData)
    ensures forall g :: FieldValue(r, g) == if g == f then Text(value) else FieldValue(d, g)
    ensures r.id == d.id
  {
    match f
    case Amount => d.(amount := Text(value))
    case Date => d.(date := value)
    case Note => d.(note := value)
    case Category => d.(category := value)
  }

  /** `parseFloat(expenseData.amount)`: a number as it is, text through `parse`
      (`None` stands for NaN). */
  function ParsedAmount(v: FormValue, parse: string -> Option<real>): Option<real>
  {
    match v
    case Number(n) => Some(n)
    case Text(s) => parse(s)
  }

  /** The submit gate `parseFloat(amount) <= 0`; NaN compares false, so an
      amount that does not parse is let through. */
  predicate Blocked(parsed: Option<real>)
  {
    parsed.Some? && parsed.value <= 0.0
  }

  datatype HttpMethod = Post | Put

  /** The JSON body; `None` amount is NaN, sent as `null`. */
  datatype Payload = Payload(amount: Option<real>, date: string, note: string, category: string)

  /** A request, with its path relative to the expenses API root. */
  datatype Request = Request(verb: HttpMethod, path: string, body: Payload)

  /** `Boolean(expenseData.id)`: an id that is present and not empty. */
  predicate IsEdit(d: FormData)
  {
    d.id.Some? && d.id.value != ""
  }

  /** The request `handleSubmit` sends: PUT to `/{id}/gp` when editing, POST
      to `/gp` otherwise, with the four form fields as the body. */
  function BuildRequest(d: FormData, parse: string -> Option<real>): (r: Request)
    ensures r.verb == Put <==> IsEdit(d)
    ensures IsEdit(d) ==> r.path == "/" + d.id.value + "/gp"
    ensures !IsEdit(d) ==> r.path == "/gp"
    ensures r.body.amount == ParsedAmount(d.amount, parse)
    ensures r.body.date == d.date && r.body.note == d.note && r.body.category == d.category
  {
    var body := Payload(ParsedAmount(d.amount, parse), d.date, d.note, d.category);
    if IsEdit(d) then Request(Put, "/" + d.id.value + "/gp", body)
    else Request(Post, "/gp", body)
  }

  /** The id picks the method and path but never reaches the body. */
  lemma BodyNeverCarriesId(d: FormData, parse: string -> Option<real>, other: Option<string>)
    ensures BuildRequest(d.(id := other), parse).body == BuildRequest(d, parse).body
  {
  }

  /** Editing a stored expense and submitting it unchanged sends a PUT for
      that expense with its own amount, day, note and category. */
  lemma EditRoundTrip(e: ExpenseView, today: string, parse: string -> Option<real>, day: string, time: string)
    requires e.id != "" && e.amount > 0.0 && e.category != ""
    requires e.date == day + "T" + time && day != "" && 'T' !in day
    ensures !Blocked(ParsedAmount(Prefill(e, today).amount, parse))
    ensures BuildRequest(Prefill(e, today), parse)
      == Request(Put, "/" + e.id + "/gp", Payload(Some(e.amount), day, e.note, e.category))
  {
    BeforeTOfTimestamp(day, time);
  }

  const AmountErrorMessage: string := "Amount must be greater than zero."

  class ExpenseForm {
    var expenseData: FormData
    var error: Option<string>
    const loadDay: string

    constructor(loadDay: string)
      ensures this.loadDay == loadDay
      ensures expenseData == DefaultExpense(loadDay) && error == None
    {
      this.loadDay := loadDay;
      expenseData := DefaultExpense(loadDay);
      error := None;
    }

    /** The open effect: prefill from the expense to edit, or reset to
        `DEFAULT_EXPENSE`; either way the error is cleared. */
    method Open(toEdit: Option<ExpenseView>, today: string)
      modifies this
      ensures toEdit.None? ==> expenseData == DefaultExpense(loadDay)
      ensures toEdit.Some? ==> expenseData == Prefill(toEdit.value, today)
      ensures error == None
    {
      if toEdit.Some? {
        expenseData := Prefill(toEdit.value, today);
      } else {
        expenseData := DefaultExpense(loadDay);
      }
      error := None;
    }

    /** `handleChange`: only the named field changes. */
    method HandleChange(field: Field, value: string)
      modifies this
      ensures expenseData == SetField(old(expenseData), field, value)
      ensures error == old(error)
    {
      expenseData := SetField(expenseData, field, value);
    }

    /** `handleSubmit` up to the request: a non-positive amount sets the error
        and sends nothing; otherwise the error is cleared and the request is
        built from the form. */
    method HandleSubmit(parse: string -> Option<real>) returns (request: Option<Request>)
      modifies this
      ensures expenseData == old(expenseData)
      ensures Blocked(ParsedAmount(expenseData.amount, parse)) ==>
        request.None? && error == Some(AmountErrorMessage)
      ensures !Blocked(ParsedAmount(expenseData.amount, parse)) ==>
        request == Some(BuildRequest(expenseData, parse)) && error == None
    {
      if Blocked(ParsedAmount(expenseData.amount, parse)) {
        error := Some(AmountErrorMessage);
        return None;
      }
      error := None;
      request := Some(BuildRequest(expenseData, parse));
    }
  }
}

=== FILE: layout.dfy ===
/** The pure logic of the page layout (frontend/src/components/Layout.jsx):
    normalising the fetched response into a list, the sidebar statistics and
    the "Recent Expenses" slice. */
module Layout {
  import opened Wrappers
  import opened Seqs
  import opened Views

  /* ---------------------------------------------------------------------- */
  /* Response normalisation                                                   */
  /* ---------------------------------------------------------------------- */

  /** The response `data`, as far as the normalisation looks into it. */
  datatype Body = Items(items: seq<ExpenseView>) | Object(fields: map<string, Body>) | Scalar

  /** `data?.name`: a member of an object, undefined on anything else. */
  function Member(b: Body, name: string): Option<Body>
  {
    if b.Object? && name in b.fields then Some(b.fields[name]) else None
  }

  /** The places the list may sit, in the order they are tried. */
  function Candidates(data: Body): seq<Option<Body>>
  {
    [Some(data), Member(data, "expenses"), Member(data, "data")]
  }

  /** The first candidate that is an array, or the empty list. */
  function FirstArray(cs: seq<Option<Body>>): (r: seq<ExpenseView>)
    ensures r == [] || exists i :: 0 <= i < |cs| && cs[i] == Some(Items(r))
    ensures (forall i :: 0 <= i < |cs| ==> !IsArray(cs[i])) ==> r == []
    ensures forall i :: 0 <= i < |cs| && IsArray(cs[i]) && (forall j :: 0 <= j < i ==> !IsArray(cs[j])) ==>
      r == cs[i].value.items
    decreases |cs|
  {
    if cs == [] then []
    else if IsArray(cs[0]) then cs[0].value.items
    else
      var r := FirstArray(cs[1..]);
      assert forall i :: 0 <= i < |cs[1..]| ==> cs[1..][i] == cs[i + 1];
      r
  }

  /** `Array.isArray(c)` on a candidate that may be undefined. */
  predicate IsArray(c: Option<Body>)
  {
    c.Some? && c.value.Items?
  }

  /** The list `fetchExpenses` keeps: `data` if it is an array, else
      `data.expenses`, else `data.data`, else nothing. */
  function FetchedExpenses(data: Body): (r: seq<ExpenseView>)
    ensures r == FirstArray(Candidates(data))
  {
    var cs := Candidates(data);
    assert cs[1..] == [Member(data, "expenses"), Member(data, "data")];
    assert cs[1..][1..] == [Member(data, "data")];
    assert cs[1..][1..][1..] == [];
    if data.Items? then data.items
    else
      assert FirstArray(cs) == FirstArray(cs[1..]);
      match Member(data, "expenses")
      case Some(Items(xs)) => xs
      case _ =>
        assert FirstArray(cs[1..]) == FirstArray(cs[1..][1..]);
        match Member(data, "data")
        case Some(Items(xs)) => xs
        case _ =>
          assert FirstArray(cs[1..][1..]) == FirstArray(cs[1..][1..][1..]);
          []
  }

  /** The list handler's own reply shape `{ success, expenses }` yields its list. */
  lemma ListReplyIsUnwrapped(xs: seq<ExpenseView>, success: Body)
    ensures FetchedExpenses(Object(map["success" := success, "expenses" := Items(xs)])) == xs
  {
    var data := Object(map["success" := success, "expenses" := Items(xs)]);
    assert Member(data, "expenses") == Some(Items(xs));
  }

  /* ---------------------------------------------------------------------- */
  /* Statistics                                                               */
  /* ---------------------------------------------------------------------- */

  /** `totalCount`. */
  function TotalCount(xs: seq<ExpenseView>): (r: nat)
    ensures r == |xs|
    ensures r as real == SumOf(xs, One)
  {
    SumOfOnes(xs);
    |xs|
  }

  /** Adding 1 per expense counts the expenses. */
  lemma {:induction false} SumOfOnes(xs: seq<ExpenseView>)
    ensures SumOf(xs, One) == |xs| as real
    decreases |xs|
  {
    if xs != [] {
      SumOfOnes(xs[1..]);
    }
  }

  /** `averageSpent` before `toFixed(2)`: 0 with no expenses, otherwise the
      total over the count. */
  function AverageSpent(xs: seq<ExpenseView>): (r: real)
    ensures xs == [] ==> r == 0.0
    ensures xs != [] ==> r * (TotalCount(xs) as real) == TotalSpent(xs)
  {
    if TotalCount(xs) == 0 then 0.0 else TotalSpent(xs) / (TotalCount(xs) as real)
  }

  /** The average lies between the smallest and the largest amount. */
  lemma AverageWithinAmounts(xs: seq<ExpenseView>, lo: real, hi: real)
    requires xs != []
    requires forall x :: x in xs ==> lo <= x.amount <= hi
    ensures lo <= AverageSpent(xs) <= hi
  {
    SumOfAtMost(xs, AmountOf, hi);
    SumOfAtLeast(xs, AmountOf, lo);
    QuotientBounds(TotalSpent(xs), |xs| as real, lo, hi);
  }

  lemma QuotientBounds(total: real, n: real, lo: real, hi: real)
    requires n > 0.0 && lo * n <= total <= hi * n
    ensures lo <= total / n <= hi
  {
    var q := total / n;
    assert q * n == total;
  }

  function One(x: ExpenseView): real { 1.0 }

  /** `categories`: the per-category reduce adding 1 per expense. */
  function CategoryCounts(xs: seq<ExpenseView>): (r: seq<(string, real)>)
    ensures SumOf(r, Value) == TotalCount(xs) as real
  {
    TallyFacts(xs, CategoryOf, One);
    Tally(xs, CategoryOf, One)
  }

  /** The category object counts occurrences, not amounts: each category that
      occurs has one entry, holding the number of its expenses. */
  lemma CountsAreOccurrences(xs: seq<ExpenseView>, c: string)
    ensures Lookup(CategoryCounts(xs), c) == |Filter(xs, InCategory(c))| as real
    ensures c in KeysOf(CategoryCounts(xs)) <==> exists x :: x in xs && x.category == c
    ensures DistinctBy(CategoryCounts(xs), Key)
  {
    TallyFacts(xs, CategoryOf, One);
    SumWhereCounts(xs, CategoryOf, c, One, InCategory(c));
  }

  /** `categories[k]`: the count of a key, undefined for a key not present. */
  function CountOf<K(==)>(t: seq<(K, real)>, k: K): Option<real>
    decreases |t|
  {
    if t == [] then None
    else if t[0].0 == k then Some(t[0].1)
    else CountOf(t[1..], k)
  }

  lemma {:induction false} CountOfAbsent<K(!new)>(t: seq<(K, real)>, k: K)
    requires forall p :: p in t ==> p.0 != k
    ensures CountOf(t, k).None?
    decreases |t|
  {
    if t != [] {
      assert t[0] in t;
      assert forall p :: p in t[1..] ==> p in t;
      CountOfAbsent(t[1..], k);
    }
  }

  /** One step of the `topCategory` reduce, `categories[a] > categories[b] ? a : b`;
      a comparison with an undefined count is false. */
  function PickTop<K(==)>(t: seq<(K, real)>, a: K, b: K): K
  {
    var ca, cb := CountOf(t, a), CountOf(t, b);
    if ca.Some? && cb.Some? && ca.value > cb.value then a else b
  }

  /** `ks.reduce(PickTop, acc)`, left to right. */
  function FoldTop<K(==)>(t: seq<(K, real)>, ks: seq<K>, acc: K): K
    decreases |ks|
  {
    if ks == [] then acc else FoldTop(t, ks[1..], PickTop(t, acc, ks[0]))
  }

  /** `topCategory`: the fold over the keys of `categories`, starting from `None`. */
  function TopCategory(xs: seq<ExpenseView>): (r: string)
    ensures xs == [] ==> r == "None"
  {
    var t := CategoryCounts(xs);
    FoldTop(t, KeysOf(t), "None")
  }

  /** Entry `i` has the largest count among the first `n` entries, and every
      later one of them a strictly smaller count. */
  ghost predicate LastMaximal<K>(t: seq<(K, real)>, n: nat, i: int)
  {
    && 0 <= i < n <= |t|
    && (forall j :: 0 <= j < n ==> t[j].1 <= t[i].1)
    && (forall j :: i < j < n ==> t[j].1 < t[i].1)
  }

  lemma {:induction false} CountOfEntry<K(!new)>(t: seq<(K, real)>, i: nat)
    requires DistinctBy(t, Key) && i < |t|
    ensures CountOf(t, t[i].0) == Some(t[i].1)
    decreases |t|
  {
    if i > 0 {
      assert Key(t[0]) != Key(t[i]);
      var tail := t[1..];
      assert DistinctBy(tail, Key) by {
        forall a, b | 0 <= a < b < |tail| ensures Key(tail[a]) != Key(tail[b]) {
          assert tail[a] == t[a + 1] && tail[b] == t[b + 1];
        }
      }
      CountOfEntry(tail, i - 1);
    }
  }

  lemma FoldTopStep<K>(t: seq<(K, real)>, n: nat, acc: K)
    requires n < |t|
    ensures FoldTop(t, KeysOf(t)[n..], acc) == FoldTop(t, KeysOf(t)[n + 1..], PickTop(t, acc, t[n].0))
  {
    var ks := KeysOf(t);
    assert ks[n..][0] == t[n].0 && ks[n..][1..] == ks[n + 1..];
  }

  /** Taking in entry `n` keeps the last entry of largest count. */
  lemma PickTopKeepsLastMaximal<K>(t: seq<(K, real)>, n: nat, i: nat) returns (i': nat)
    requires LastMaximal(t, n, i) && n < |t|
    requires CountOf(t, t[i].0) == Some(t[i].1) && CountOf(t, t[n].0) == Some(t[n].1)
    ensures LastMaximal(t, n + 1, i') && PickTop(t, t[i].0, t[n].0) == t[i'].0
  {
    if t[i].1 > t[n].1 {
      i' := i;
    } else {
      i' := n;
    }
  }

  /** One step of the fold keeps the last entry of largest count. */
  lemma FoldTopStepKeepsLastMaximal<K(!new)>(t: seq<(K, real)>, n: nat, i: nat) returns (i': nat)
    requires DistinctBy(t, Key)
    requires LastMaximal(t, n, i) && n < |t|
    ensures LastMaximal(t, n + 1, i')
    ensures FoldTop(t, KeysOf(t)[n..], t[i].0) == FoldTop(t, KeysOf(t)[n + 1..], t[i'].0)
  {
    FoldTopStep(t, n, t[i].0);
    CountOfEntry(t, i);
    CountOfEntry(t, n);
    i' := PickTopKeepsLastMaximal(t, n, i);
  }

  /** Folding the remaining keys keeps the last entry of largest count. */
  lemma {:induction false} FoldTopKeepsLastMaximal<K(!new)>(t: seq<(K, real)>, n: nat, i: nat) returns (m: nat)
    requires DistinctBy(t, Key)
    requires LastMaximal(t, n, i)
    ensures LastMaximal(t, |t|, m) && FoldTop(t, KeysOf(t)[n..], t[i].0) == t[m].0
    decreases |t| - n
  {
    if n == |t| {
      assert KeysOf(t)[n..] == [];
      m := i;
    } else {
      var i' := FoldTopStepKeepsLastMaximal(t, n, i);
      m := FoldTopKeepsLastMaximal(t, n + 1, i');
    }
  }

  /** When no expense is in a category named `None`, the top category is the
      category with the most expenses, and on a tie the one whose first
      expense comes last (strict `>` keeps the later key). */
  lemma TopCategoryIsLastMaximal(xs: seq<ExpenseView>)
    requires xs != []
    requires forall x :: x in xs ==> x.category != "None"
    ensures var t := CategoryCounts(xs);
      exists m :: LastMaximal(t, |t|, m) && TopCategory(xs) == t[m].0
  {
    var t := CategoryCounts(xs);
    var ks := KeysOf(t);
    TallyFacts(xs, CategoryOf, One);
    assert xs[0] in xs;
    assert |ks| > 0;
    assert "None" !in ks;
    forall p | p in t ensures p.0 != "None" {
      var j :| 0 <= j < |t| && t[j] == p;
      assert ks[j] == p.0;
    }
    CountOfAbsent(t, "None");
    assert PickTop(t, "None", ks[0]) == ks[0];
    assert FoldTop(t, ks, "None") == FoldTop(t, ks[1..], t[0].0);
    var m := FoldTopKeepsLastMaximal(t, 1, 0);
  }

  /* ---------------------------------------------------------------------- */
  /* Recent expenses                                                          */
  /* ---------------------------------------------------------------------- */

  /** `expenses.slice(0, 3)`: the first three expenses, in order. */
  function RecentExpenses(xs: seq<ExpenseView>): (r: seq<ExpenseView>)
    ensures |r| == if |xs| < 3 then |xs| else 3
    ensures r <= xs
  {
    if |xs| <= 3 then xs else xs[..3]
  }
}

=== FILE: schema.dfy ===
/** The Expense document and its schema (backend/middleware/expenseModel.js):
    field types, the validators (`required`, `min`, `enum`) and the defaults
    applied when a field is left out. */
module Schema {
  import opened Wrappers

  /** Store-generated document id. Ids are handed out in increasing order, so
      ascending id is the collection's insertion ("natural") order. */
  type Id = nat

  /** The authenticated user's id (`req.user._id`). */
  type OwnerId = nat

  /** An instant, ordered by (year, month, position within the month). Only the
      order and the calendar year and month of an instant are observed. */
  datatype Instant = Instant(year: int, month: int, rest: nat)

  /** `a <= b` on instants. */
  predicate NotAfter(a: Instant, b: Instant)
  {
    a.year < b.year || (a.year == b.year && (a.month < b.month || (a.month == b.month && a.rest <= b.rest)))
  }

  /** The five values the `category` enum admits. */
  datatype Category = Food | Travel | Bills | Entertainment | Other

  function CategoryName(c: Category): string
  {
    match c
    case Food => "Food"
    case Travel => "Travel"
    case Bills => "Bills"
    case Entertainment => "Entertainment"
    case Other => "Other"
  }

  /** The enum's names, in declaration order. */
  const CategoryNames: seq<string> := ["Food", "Travel", "Bills", "Entertainment", "Other"]

  /** The enum validator: a string is admitted exactly when it names a category. */
  function ParseCategory(s: string): (r: Option<Category>)
    ensures r.Some? <==> s in CategoryNames
    ensures r.Some? ==> CategoryName(r.value) == s
  {
    if s == "Food" then Some(Food)
    else if s == "Travel" then Some(Travel)
    else if s == "Bills" then Some(Bills)
    else if s == "Entertainment" then Some(Entertainment)
    else if s == "Other" then Some(Other)
    else None
  }

  lemma CategoryNamesRoundTrip(c: Category)
    ensures ParseCategory(CategoryName(c)) == Some(c)
    ensures CategoryName(c) in CategoryNames
  {
  }

  /** `min: 0.01` on `amount`. */
  const MinAmount: real := 0.01

  /** A stored expense document. */
  datatype Expense = Expense(
    id: Id,
    amount: real,
    date: Instant,
    note: string,
    category: Category,
    owner: OwnerId,
    createdAt: Instant)

  /** A stored document satisfies every validator; the enum and `required: true`
      on `owner` are already enforced by the field types. */
  predicate Conforms(e: Expense)
  {
    e.amount >= MinAmount
  }

  /** The fields handed to `new Expense({...})`; an absent field is `undefined`. */
  datatype Draft = Draft(
    amount: Option<real>,
    date: Option<Instant>,
    note: Option<string>,
    category: Option<string>,
    owner: Option<OwnerId>,
    createdAt: Option<Instant>)

  datatype SchemaError = AmountRequired | AmountBelowMinimum | CategoryNotInEnum | OwnerRequired

  /** Builds the document the schema makes of `d` and runs its validators,
      as `save()` does: absent fields take their defaults (`date` and
      `createdAt` the instant `now`, `note` the empty string, `category`
      Other); a missing or too small amount, a category outside the enum or a
      missing owner is rejected. */
  function Instantiate(id: Id, d: Draft, now: Instant): (r: Result<Expense, SchemaError>)
    ensures r.Success? <==>
      && d.amount.Some? && d.amount.value >= MinAmount
      && (d.category.Some? ==> d.category.value in CategoryNames)
      && d.owner.Some?
    ensures r.Success? ==> Conforms(r.value) && r.value.id == id
    ensures r.Success? ==>
      && r.value.amount == d.amount.value
      && r.value.date == d.date.GetOr(now)
      && r.value.note == d.note.GetOr("")
      && CategoryName(r.value.category) == d.category.GetOr("Other")
      && r.value.owner == d.owner.value
      && r.value.createdAt == d.createdAt.GetOr(now)
  {
    if d.amount.None? then Failure(AmountRequired)
    else if d.amount.value < MinAmount then Failure(AmountBelowMinimum)
    else
      var category := ParseCategory(d.category.GetOr("Other"));
      if category.None? then Failure(CategoryNotInEnum)
      else if d.owner.None? then Failure(OwnerRequired)
      else Success(Expense(id, d.amount.value, d.date.GetOr(now), d.note.GetOr(""),
                           category.value, d.owner.value, d.createdAt.GetOr(now)))
  }

  /** An update body made of plain schema paths: the paths it may set, each
      present with a value or absent (left alone). Strict mode drops other
      plain keys; update operators such as `$inc`, and `null` or `""` values,
      are outside this type. */
  datatype Patch = Patch(
    amount: Option<real>,
    date: Option<Instant>,
    note: Option<string>,
    category: Option<string>,
    owner: Option<OwnerId>,
    createdAt: Option<Instant>)

  /** The update validators (`runValidators: true`): only the paths being set
      are checked, against the same `min` and `enum` rules as on creation. */
  predicate PatchValid(p: Patch)
  {
    && (p.amount.Some? ==> p.amount.value >= MinAmount)
    && (p.category.Some? ==> p.category.value in CategoryNames)
  }

  /** Sets the paths `p` carries on `e` and keeps every other field. */
  function ApplyPatch(e: Expense, p: Patch): (r: Result<Expense, SchemaError>)
    ensures r.Success? <==> PatchValid(p)
    ensures r.Success? ==>
      && r.value.id == e.id
      && r.value.amount == p.amount.GetOr(e.amount)
      && r.value.date == p.date.GetOr(e.date)
      && r.value.note == p.note.GetOr(e.note)
      && CategoryName(r.value.category) == p.category.GetOr(CategoryName(e.category))
      && r.value.owner == p.owner.GetOr(e.owner)
      && r.value.createdAt == p.createdAt.GetOr(e.createdAt)
    ensures r.Success? && Conforms(e) ==> Conforms(r.value)
  {
    if p.amount.Some? && p.amount.value < MinAmount then Failure(AmountBelowMinimum)
    else if p.category.Some? && ParseCategory(p.category.value).None? then Failure(CategoryNotInEnum)
    else
      var category := if p.category.Some? then ParseCategory(p.category.value).value else e.category;
      Success(e.(amount := p.amount.GetOr(e.amount),
                 date := p.date.GetOr(e.date),
                 note := p.note.GetOr(e.note),
                 category := category,
                 owner := p.owner.GetOr(e.owner),
                 createdAt := p.createdAt.GetOr(e.createdAt)))
  }
}

=== FILE: seqs.dfy ===
/** The sequence idioms the expense code is built from: `reduce` into a sum,
    `reduce` into a per-key object (`acc[k] = (acc[k] || 0) + v`), `filter`,
    and sorting by a key; each with what it is proved to compute. */
module Seqs {

  /* ---------------------------------------------------------------------- */
  /* Sums                                                                     */
  /* ---------------------------------------------------------------------- */

  /** The sum of `f` over `xs`. Amounts are exact reals, so the order in which
      a `reduce` adds them up does not change the result. */
  function SumOf<T>(xs: seq<T>, f: T -> real): real
    decreases |xs|
  {
    if xs == [] then 0.0 else f(xs[0]) + SumOf(xs[1..], f)
  }

  lemma {:induction false} SumOfAppend<T>(xs: seq<T>, ys: seq<T>, f: T -> real)
    ensures SumOf(xs + ys, f) == SumOf(xs, f) + SumOf(ys, f)
    decreases |xs|
  {
    if xs == [] {
      assert xs + ys == ys;
    } else {
      assert (xs + ys)[1..] == xs[1..] + ys;
      SumOfAppend(xs[1..], ys, f);
    }
  }

  /** Reordering the elements does not change a sum. */
  lemma {:induction false} SumOfPermutation<T>(xs: seq<T>, ys: seq<T>, f: T -> real)
    requires multiset(xs) == multiset(ys)
    ensures SumOf(xs, f) == SumOf(ys, f)
    decreases |xs|
  {
    if xs == [] {
      assert |ys| == |multiset(ys)| == 0;
    } else {
      var x := xs[0];
      assert x in multiset(ys);
      var j :| 0 <= j < |ys| && ys[j] == x;
      var rest := ys[..j] + ys[j + 1..];
      assert ys == ys[..j] + ([x] + ys[j + 1..]);
      assert xs == [x] + xs[1..];
      assert multiset(ys) == multiset(ys[..j]) + multiset{x} + multiset(ys[j + 1..]);
      assert multiset(xs) == multiset{x} + multiset(xs[1..]);
      assert multiset(rest) == multiset(ys[..j]) + multiset(ys[j + 1..]);
      assert multiset(xs[1..]) == multiset(xs) - multiset{x};
      assert multiset(rest) == multiset(ys) - multiset{x};
      SumOfPermutation(xs[1..], rest, f);
      SumOfAppend(ys[..j], [x] + ys[j + 1..], f);
      SumOfAppend(ys[..j], ys[j + 1..], f);
      assert ([x] + ys[j + 1..])[1..] == ys[j + 1..];
    }
  }

  /** The sum of `w` over the elements whose key is `k` (0 when there are none). */
  function SumWhere<T(!new), K(==,!new)>(xs: seq<T>, key: T -> K, k: K, w: T -> real): real
    decreases |xs|
  {
    if xs == [] then 0.0
    else (if key(xs[0]) == k then w(xs[0]) else 0.0) + SumWhere(xs[1..], key, k, w)
  }

  lemma {:induction false} SumWhereAppend<T(!new), K(!new)>(xs: seq<T>, ys: seq<T>, key: T -> K, k: K, w: T -> real)
    ensures SumWhere(xs + ys, key, k, w) == SumWhere(xs, key, k, w) + SumWhere(ys, key, k, w)
    decreases |xs|
  {
    if xs == [] {
      assert xs + ys == ys;
    } else {
      assert (xs + ys)[1..] == xs[1..] + ys;
      SumWhereAppend(xs[1..], ys, key, k, w);
    }
  }

  /** A key no element has sums to 0. */
  lemma {:induction false} SumWhereAbsent<T(!new), K(!new)>(xs: seq<T>, key: T -> K, k: K, w: T -> real)
    requires forall x :: x in xs ==> key(x) != k
    ensures SumWhere(xs, key, k, w) == 0.0
    decreases |xs|
  {
    if xs != [] {
      assert key(xs[0]) != k;
      assert forall x :: x in xs[1..] ==> x in xs;
      SumWhereAbsent(xs[1..], key, k, w);
    }
  }

  lemma Distribute(a: real, n: real)
    ensures a * (n + 1.0) == a * n + a
  {
  }

  /** When every element has `f` at most `hi`, the sum is at most `hi` times
      the length. */
  lemma {:induction false} SumOfAtMost<T(!new)>(xs: seq<T>, f: T -> real, hi: real)
    requires forall x :: x in xs ==> f(x) <= hi
    ensures SumOf(xs, f) <= hi * (|xs| as real)
    decreases |xs|
  {
    if xs != [] {
      var tail := xs[1..];
      assert forall x :: x in tail ==> x in xs;
      SumOfAtMost(tail, f, hi);
      assert xs[0] in xs;
      var n := |tail| as real;
      assert f(xs[0]) <= hi && SumOf(tail, f) <= hi * n;
      assert |xs| as real == n + 1.0;
      Distribute(hi, n);
      assert hi * (|xs| as real) == hi * n + hi;
      assert SumOf(xs, f) == f(xs[0]) + SumOf(tail, f);
    }
  }

  /** When every element has `f` at least `lo`, the sum is at least `lo` times
      the length. */
  lemma {:induction false} SumOfAtLeast<T(!new)>(xs: seq<T>, f: T -> real, lo: real)
    requires forall x :: x in xs ==> lo <= f(x)
    ensures lo * (|xs| as real) <= SumOf(xs, f)
    decreases |xs|
  {
    if xs != [] {
      var tail := xs[1..];
      assert forall x :: x in tail ==> x in xs;
      SumOfAtLeast(tail, f, lo);
      assert xs[0] in xs;
      var n := |tail| as real;
      assert lo <= f(xs[0]) && lo * n <= SumOf(tail, f);
      assert |xs| as real == n + 1.0;
      Distribute(lo, n);
      assert lo * (|xs| as real) == lo * n + lo;
      assert SumOf(xs, f) == f(xs[0]) + SumOf(tail, f);
    }
  }

  /* ---------------------------------------------------------------------- */
  /* Filtering                                                                */
  /* ---------------------------------------------------------------------- */

  /** `a` is `b` with some elements left out, the rest kept in their order. */
  predicate SubsequenceOf<T(==,!new)>(a: seq<T>, b: seq<T>)
    decreases |b|
  {
    a == [] || (b != [] && ((a[0] == b[0] && SubsequenceOf(a[1..], b[1..])) || SubsequenceOf(a, b[1..])))
  }

  /** `Array.prototype.filter`: the elements satisfying `p`, in their original order. */
  function Filter<T(==,!new)>(xs: seq<T>, p: T -> bool): (r: seq<T>)
    ensures forall x :: x in r <==> x in xs && p(x)
    ensures forall x :: multiset(r)[x] == if p(x) then multiset(xs)[x] else 0
    ensures SubsequenceOf(r, xs)
    decreases |xs|
  {
    if xs == [] then []
    else
      assert xs == [xs[0]] + xs[1..];
      if p(xs[0]) then [xs[0]] + Filter(xs[1..], p) else Filter(xs[1..], p)
  }

  /** No two elements share a key. */
  ghost predicate DistinctBy<T(!new), K(!new)>(s: seq<T>, kf: T -> K)
  {
    forall i, j :: 0 <= i < j < |s| ==> kf(s[i]) != kf(s[j])
  }

  lemma {:induction false} FilterDistinct<T(!new), K(!new)>(xs: seq<T>, p: T -> bool, kf: T -> K)
    requires DistinctBy(xs, kf)
    ensures DistinctBy(Filter(xs, p), kf)
    decreases |xs|
  {
    if xs != [] {
      var tail := xs[1..];
      assert DistinctBy(tail, kf) by {
        forall i, j | 0 <= i < j < |tail| ensures kf(tail[i]) != kf(tail[j]) {
          assert tail[i] == xs[i + 1] && tail[j] == xs[j + 1];
        }
      }
      FilterDistinct(tail, p, kf);
      var t := Filter(tail, p);
      if p(xs[0]) {
        var r := Filter(xs, p);
        assert r == [xs[0]] + t;
        forall i, j | 0 <= i < j < |r| ensures kf(r[i]) != kf(r[j]) {
          if i == 0 {
            assert r[j] == t[j - 1] && t[j - 1] in tail;
            var k :| 0 <= k < |tail| && tail[k] == t[j - 1];
            assert xs[k + 1] == r[j];
          } else {
            assert r[i] == t[i - 1] && r[j] == t[j - 1];
          }
        }
      }
    }
  }

  /* ---------------------------------------------------------------------- */
  /* Sorting                                                                  */
  /* ---------------------------------------------------------------------- */

  /** `le` orders every pair and is transitive (ties are allowed). */
  ghost predicate TotalPreorder<T(!new)>(le: (T, T) -> bool)
  {
    && (forall a, b :: le(a, b) || le(b, a))
    && (forall a, b, c :: le(a, b) && le(b, c) ==> le(a, c))
  }

  ghost predicate SortedBy<T(!new)>(s: seq<T>, le: (T, T) -> bool)
  {
    forall i, j :: 0 <= i < j < |s| ==> le(s[i], s[j])
  }

  /** Puts `x` in front of the first element it is ordered before. */
  function Insert<T(==,!new)>(x: T, s: seq<T>, le: (T, T) -> bool): (r: seq<T>)
    ensures multiset(r) == multiset(s) + multiset{x}
    decreases |s|
  {
    if s == [] || le(x, s[0]) then [x] + s
    else
      assert s == [s[0]] + s[1..];
      [s[0]] + Insert(x, s[1..], le)
  }

  /** A stable sort: elements that `le` ties keep their original order. */
  function SortBy<T(==,!new)>(s: seq<T>, le: (T, T) -> bool): (r: seq<T>)
    ensures multiset(r) == multiset(s)
    decreases |s|
  {
    if s == [] then []
    else
      assert s == [s[0]] + s[1..];
      Insert(s[0], SortBy(s[1..], le), le)
  }

  lemma {:induction false} InsertSorted<T(!new)>(x: T, s: seq<T>, le: (T, T) -> bool)
    requires TotalPreorder(le) && SortedBy(s, le)
    ensures SortedBy(Insert(x, s, le), le)
    decreases |s|
  {
    if s == [] || le(x, s[0]) {
      var r := [x] + s;
      forall i, j | 0 <= i < j < |r| ensures le(r[i], r[j]) {
        if i == 0 && j > 1 {
          assert le(s[0], s[j - 1]);
        }
      }
    } else {
      var tail := s[1..];
      assert SortedBy(tail, le) by {
        forall i, j | 0 <= i < j < |tail| ensures le(tail[i], tail[j]) {
          assert tail[i] == s[i + 1] && tail[j] == s[j + 1];
        }
      }
      InsertSorted(x, tail, le);
      var t := Insert(x, tail, le);
      var r := [s[0]] + t;
      assert le(s[0], x);
      forall i, j | 0 <= i < j < |r| ensures le(r[i], r[j]) {
        if i == 0 {
          assert r[j] == t[j - 1];
          assert t[j - 1] in multiset(t);
          if t[j - 1] != x {
            assert t[j - 1] in multiset(tail);
            var k :| 0 <= k < |tail| && tail[k] == t[j - 1];
            assert s[k + 1] == t[j - 1];
          }
        } else {
          assert r[i] == t[i - 1] && r[j] == t[j - 1];
        }
      }
    }
  }

  lemma {:induction false} SortBySorted<T(!new)>(s: seq<T>, le: (T, T) -> bool)
    requires TotalPreorder(le)
    ensures SortedBy(SortBy(s, le), le)
    decreases |s|
  {
    if s != [] {
      SortBySorted(s[1..], le);
      InsertSorted(s[0], SortBy(s[1..], le), le);
    }
  }

  lemma {:induction false} InsertDistinct<T(!new), K(!new)>(x: T, s: seq<T>, le: (T, T) -> bool, kf: T -> K)
    requires DistinctBy(s, kf)
    requires forall y :: y in s ==> kf(y) != kf(x)
    ensures DistinctBy(Insert(x, s, le), kf)
    decreases |s|
  {
    if s == [] || le(x, s[0]) {
      var r := [x] + s;
      forall i, j | 0 <= i < j < |r| ensures kf(r[i]) != kf(r[j]) {
        if i == 0 {
          assert r[j] == s[j - 1] && s[j - 1] in s;
        } else {
          assert r[i] == s[i - 1] && r[j] == s[j - 1];
        }
      }
    } else {
      var tail := s[1..];
      assert DistinctBy(tail, kf) by {
        forall i, j | 0 <= i < j < |tail| ensures kf(tail[i]) != kf(tail[j]) {
          assert tail[i] == s[i + 1] && tail[j] == s[j + 1];
        }
      }
      forall y | y in tail ensures kf(y) != kf(x) {
        assert y in s;
      }
      InsertDistinct(x, tail, le, kf);
      var t := Insert(x, tail, le);
      var r := [s[0]] + t;
      forall i, j | 0 <= i < j < |r| ensures kf(r[i]) != kf(r[j]) {
        if i == 0 {
          assert r[j] == t[j - 1];
          assert t[j - 1] in multiset(t);
          if t[j - 1] == x {
            assert s[0] in s;
          } else {
            assert t[j - 1] in multiset(tail);
            var k :| 0 <= k < |tail| && tail[k] == t[j - 1];
            assert s[k + 1] == t[j - 1];
          }
        } else {
          assert r[i] == t[i - 1] && r[j] == t[j - 1];
        }
      }
    }
  }

  lemma {:induction false} SortByDistinct<T(!new), K(!new)>(s: seq<T>, le: (T, T) -> bool, kf: T -> K)
    requires DistinctBy(s, kf)
    ensures DistinctBy(SortBy(s, le), kf)
    decreases |s|
  {
    if s != [] {
      var tail := s[1..];
      assert DistinctBy(tail, kf) by {
        forall i, j | 0 <= i < j < |tail| ensures kf(tail[i]) != kf(tail[j]) {
          assert tail[i] == s[i + 1] && tail[j] == s[j + 1];
        }
      }
      SortByDistinct(tail, le, kf);
      var t := SortBy(tail, le);
      forall y | y in t ensures kf(y) != kf(s[0]) {
        assert y in multiset(t);
        assert y in multiset(tail);
        var k :| 0 <= k < |tail| && tail[k] == y;
        assert s[k + 1] == y;
      }
      InsertDistinct(s[0], t, le, kf);
    }
  }

  /* ---------------------------------------------------------------------- */
  /* Grouping: reduce into an object keyed by a field                        */
  /* ---------------------------------------------------------------------- */

  function Key<K, V>(p: (K, V)): K { p.0 }
  function Value<K>(p: (K, real)): real { p.1 }

  /** The keys of `t`, in order (`Object.keys`). */
  function KeysOf<K, V>(t: seq<(K, V)>): (r: seq<K>)
    ensures |r| == |t|
    ensures forall i :: 0 <= i < |t| ==> r[i] == t[i].0
    decreases |t|
  {
    if t == [] then [] else [t[0].0] + KeysOf(t[1..])
  }

  /** Reordering entries keeps the set of keys. */
  lemma SortByKeys<K(!new)>(t: seq<(K, real)>, le: ((K, real), (K, real)) -> bool)
    ensures forall k :: k in KeysOf(SortBy(t, le)) <==> k in KeysOf(t)
  {
    var s := SortBy(t, le);
    forall k ensures k in KeysOf(s) <==> k in KeysOf(t) {
      if k in KeysOf(s) {
        var i :| 0 <= i < |s| && KeysOf(s)[i] == k;
        assert s[i] in multiset(t);
        var j :| 0 <= j < |t| && t[j] == s[i];
        assert KeysOf(t)[j] == k;
      }
      if k in KeysOf(t) {
        var j :| 0 <= j < |t| && KeysOf(t)[j] == k;
        assert t[j] in multiset(s);
        var i :| 0 <= i < |s| && s[i] == t[j];
        assert KeysOf(s)[i] == k;
      }
    }
  }

  /** `obj[k]`, read as `obj[k] || 0`: the first entry with key `k`, or 0. */
  function Lookup<K(==,!new)>(t: seq<(K, real)>, k: K): real
    decreases |t|
  {
    if t == [] then 0.0 else if t[0].0 == k then t[0].1 else Lookup(t[1..], k)
  }

  /** One step of the per-key reduce, `acc[k] = (acc[k] || 0) + v`: an existing
      key keeps its place; a new key is appended (object keys keep insertion order). */
  function AddTo<K(==,!new)>(acc: seq<(K, real)>, k: K, v: real): (r: seq<(K, real)>)
    ensures forall q :: Lookup(r, q) == Lookup(acc, q) + (if q == k then v else 0.0)
    ensures KeysOf(r) == if k in KeysOf(acc) then KeysOf(acc) else KeysOf(acc) + [k]
    ensures SumOf(r, Value) == SumOf(acc, Value) + v
    decreases |acc|
  {
    if acc == [] then [(k, v)]
    else if acc[0].0 == k then
      var r := [(k, acc[0].1 + v)] + acc[1..];
      assert r[1..] == acc[1..];
      r
    else
      var r := [acc[0]] + AddTo(acc[1..], k, v);
      assert r[1..] == AddTo(acc[1..], k, v);
      assert KeysOf(acc) == [acc[0].0] + KeysOf(acc[1..]);
      r
  }

  /** The per-key reduce never creates a second entry for a key. */
  lemma AddToDistinct<K(!new)>(acc: seq<(K, real)>, k: K, v: real)
    requires DistinctBy(acc, Key)
    ensures DistinctBy(AddTo(acc, k, v), Key)
  {
    var r := AddTo(acc, k, v);
    var ks, ks' := KeysOf(acc), KeysOf(r);
    forall i, j | 0 <= i < j < |r| ensures Key(r[i]) != Key(r[j]) {
      assert Key(r[i]) == ks'[i] && Key(r[j]) == ks'[j];
      if j < |acc| {
        assert ks'[i] == ks[i] == Key(acc[i]) && ks'[j] == ks[j] == Key(acc[j]);
      } else {
        assert ks'[i] == ks[i] && ks'[j] == k && k !in ks;
      }
    }
  }

  /** Tally(xs, key, w): the object built by
      `xs.reduce((acc, x) => { acc[key(x)] = (acc[key(x)] || 0) + w(x); return acc }, {})`,
      as its entries in key-insertion order. */
  function Tally<T(!new), K(==,!new)>(xs: seq<T>, key: T -> K, w: T -> real): seq<(K, real)>
    decreases |xs|
  {
    if xs == [] then []
    else
      var n := |xs| - 1;
      AddTo(Tally(xs[..n], key, w), key(xs[n]), w(xs[n]))
  }

  /** With distinct keys, reading an entry's key gives back the entry's value. */
  lemma {:induction false} LookupDistinct<K(!new)>(t: seq<(K, real)>, p: (K, real))
    requires DistinctBy(t, Key) && p in t
    ensures Lookup(t, p.0) == p.1
    decreases |t|
  {
    if t[0] != p {
      var tail := t[1..];
      assert p in tail;
      var i :| 0 <= i < |tail| && tail[i] == p;
      assert Key(t[0]) != Key(t[i + 1]);
      assert DistinctBy(tail, Key) by {
        forall a, b | 0 <= a < b < |tail| ensures Key(tail[a]) != Key(tail[b]) {
          assert tail[a] == t[a + 1] && tail[b] == t[b + 1];
        }
      }
      LookupDistinct(tail, p);
    }
  }

  /** What the per-key reduce computes: one entry per key that occurs, each
      holding the sum of that key's weights, and nothing lost overall. */
  lemma {:induction false} TallyFacts<T(!new), K(!new)>(xs: seq<T>, key: T -> K, w: T -> real)
    ensures DistinctBy(Tally(xs, key, w), Key)
    ensures forall k :: Lookup(Tally(xs, key, w), k) == SumWhere(xs, key, k, w)
    ensures forall k :: k in KeysOf(Tally(xs, key, w)) <==> exists x :: x in xs && key(x) == k
    ensures forall p :: p in Tally(xs, key, w) ==> p.1 == SumWhere(xs, key, p.0, w)
    ensures SumOf(Tally(xs, key, w), Value) == SumOf(xs, w)
    decreases |xs|
  {
    var t := Tally(xs, key, w);
    if xs == [] {
    } else {
      var n := |xs| - 1;
      var init, last := xs[..n], xs[n];
      assert xs == init + [last];
      TallyFacts(init, key, w);
      forall k ensures Lookup(t, k) == SumWhere(xs, key, k, w) {
        SumWhereAppend(init, [last], key, k, w);
      }
      AddToDistinct(Tally(init, key, w), key(last), w(last));
      forall k ensures k in KeysOf(t) <==> exists x :: x in xs && key(x) == k {
        if exists x :: x in xs && key(x) == k {
          var x :| x in xs && key(x) == k;
          if x != last {
            assert x in init;
          }
        }
      }
      forall p | p in t ensures p.1 == SumWhere(xs, key, p.0, w) {
        LookupDistinct(t, p);
      }
      SumOfAppend(init, [last], w);
    }
  }

  /** Summing the weight 1 over the elements with key `k` counts them. */
  lemma {:induction false} SumWhereCounts<T(!new), K(!new)>(xs: seq<T>, key: T -> K, k: K, w: T -> real, p: T -> bool)
    requires forall x :: w(x) == 1.0
    requires forall x :: p(x) <==> key(x) == k
    ensures SumWhere(xs, key, k, w) == |Filter(xs, p)| as real
    decreases |xs|
  {
    if xs != [] {
      SumWhereCounts(xs[1..], key, k, w, p);
    }
  }

  /** Summing over the elements a filter keeps is summing over their key. */
  lemma {:induction false} SumOfFilter<T(!new), K(!new)>(xs: seq<T>, key: T -> K, k: K, w: T -> real, p: T -> bool)
    requires forall x :: p(x) <==> key(x) == k
    ensures SumOf(Filter(xs, p), w) == SumWhere(xs, key, k, w)
    decreases |xs|
  {
    if xs != [] {
      SumOfFilter(xs[1..], key, k, w, p);
      var rest := Filter(xs[1..], p);
      if p(xs[0]) {
        assert ([xs[0]] + rest)[1..] == rest;
      }
    }
  }

  /** A per-key tally put in the order `le`: each key of `xs` once, with the
      sum of its weights, ordered, and adding up to the total weight. */
  lemma {:induction false} SortedTallyFacts<T(!new), K(!new)>(xs: seq<T>, key: T -> K, w: T -> real, le: ((K, real), (K, real)) -> bool)
    requires TotalPreorder(le)
    ensures var g := SortBy(Tally(xs, key, w), le);
      && DistinctBy(g, Key)
      && (forall k :: k in KeysOf(g) <==> exists x :: x in xs && key(x) == k)
      && (forall p :: p in g ==> p.1 == SumWhere(xs, key, p.0, w))
      && SortedBy(g, le)
      && SumOf(g, Value) == SumOf(xs, w)
  {
    var t := Tally(xs, key, w);
    var g := SortBy(t, le);
    TallyFacts(xs, key, w);
    SortBySorted(t, le);
    SortByDistinct(t, le, Key);
    SortByKeys(t, le);
    SumOfPermutation(g, t, Value);
    forall p | p in g ensures p.1 == SumWhere(xs, key, p.0, w) {
      assert p in multiset(t);
    }
  }
}

=== FILE: sidebar.dfy ===
/** The budget panel of the sidebar (frontend/src/components/Sidebar.jsx):
    the stored budget, the validated budget input and the remaining-budget
    line. */
module Sidebar {
  import opened Wrappers
  import opened Views

  /** The storage key the panel reads and writes. */
  const BudgetKey: string := "totalBudget"

  /** The budget shown when none is stored. */
  const DefaultBudget: real := 1000.0

  const BudgetErrorMessage: string := "Budget must be a positive number"

  /** The initial `totalBudget`: the stored budget if there is one, else 1000. */
  function InitialBudget(storage: Storage): (r: real)
    ensures BudgetKey in storage ==> r == storage[BudgetKey]
    ensures BudgetKey !in storage ==> r == DefaultBudget
  {
    if BudgetKey in storage then storage[BudgetKey] else DefaultBudget
  }

  /** `localStorage.setItem('totalBudget', num)`. */
  function Persist(storage: Storage, num: real): (r: Storage)
    ensures r.Keys == storage.Keys + {BudgetKey}
    ensures forall k :: k in storage && k != BudgetKey ==> r[k] == storage[k]
    ensures InitialBudget(r) == num
  {
    storage[BudgetKey := num]
  }

  /** What the input field holds: the budget's own text until the user types,
      then exactly what was typed. */
  datatype BudgetText = Shown(value: real) | Typed(text: string)

  /** The input is accepted when it parses to a number above 0 (`isNaN` is a
      parse failure). */
  predicate AcceptsBudget(parsed: Option<real>)
  {
    parsed.Some? && parsed.value > 0.0
  }

  class BudgetPanel {
    var totalBudget: real
    var budgetInput: BudgetText
    var budgetError: Option<string>
    var storage: Storage

    /** The budget on screen is the one a reload would read back. */
    ghost predicate Valid()
      reads this
    {
      totalBudget == InitialBudget(storage)
    }

    constructor(saved: Storage)
      ensures Valid()
      ensures storage == saved && totalBudget == InitialBudget(saved)
      ensures budgetInput == Shown(totalBudget) && budgetError == None
    {
      storage := saved;
      totalBudget := InitialBudget(saved);
      budgetInput := Shown(InitialBudget(saved));
      budgetError := None;
    }

    /** `handleBudgetChange`: the typed text is always kept; a positive number
        becomes the budget and is stored, anything else only raises the
        error. `parse` stands for `parseFloat`. */
    method HandleBudgetChange(val: string, parse: string -> Option<real>)
      requires Valid()
      modifies this
      ensures Valid()
      ensures budgetInput == Typed(val)
      ensures !AcceptsBudget(parse(val)) ==>
        && budgetError == Some(BudgetErrorMessage)
        && totalBudget == old(totalBudget)
        && storage == old(storage)
      ensures AcceptsBudget(parse(val)) ==>
        && budgetError == None
        && totalBudget == parse(val).value
        && storage == Persist(old(storage), parse(val).value)
    {
      budgetInput := Typed(val);
      var num := parse(val);
      if !AcceptsBudget(num) {
        budgetError := Some(BudgetErrorMessage);
      } else {
        budgetError := None;
        totalBudget := num.value;
        storage := Persist(storage, num.value);
      }
    }
  }

  /** A budget set through the panel is positive and is what a fresh panel
      reads back. */
  lemma AcceptedBudgetSurvivesReload(storage: Storage, val: string, parse: string -> Option<real>)
    requires AcceptsBudget(parse(val))
    ensures InitialBudget(Persist(storage, parse(val).value)) == parse(val).value > 0.0
  {
  }

  /** `totalExpenses`: the sum of the amounts, 0 when there is no list. */
  function TotalExpenses(expenses: Option<seq<ExpenseView>>): (r: real)
    ensures expenses.None? ==> r == 0.0
    ensures expenses.Some? ==> r == TotalSpent(expenses.value)
  {
    match expenses
    case None => 0.0
    case Some(xs) => TotalSpent(xs)
  }

  /** The "Remaining Budget" line, `Math.max(totalBudget - totalExpenses, 0)`:
      never negative, and exactly the difference while the budget covers the
      expenses. */
  function RemainingBudget(totalBudget: real, expenses: Option<seq<ExpenseView>>): (r: real)
    ensures r >= 0.0
    ensures TotalExpenses(expenses) <= totalBudget ==> r == totalBudget - TotalExpenses(expenses)
    ensures TotalExpenses(expenses) > totalBudget ==> r == 0.0
  {
    Remaining(totalBudget, TotalExpenses(expenses))
  }
}

=== FILE: views.dfy ===
/** The expense objects the pages receive from the API, the browser storage
    they read and write, and the reductions several pages share. */
module Views {
  import opened Seqs

  /** An expense as the pages see it: the JSON form of a stored document, with
      `_id`, `date` and `category` as plain strings. */
  datatype ExpenseView = ExpenseView(id: string, amount: real, date: string, note: string, category: string)

  /** `localStorage`, holding numbers as numbers. */
  type Storage = map<string, real>

  function AmountOf(x: ExpenseView): real { x.amount }

  function CategoryOf(x: ExpenseView): string { x.category }

  /** The filter callback `expense => expense.category === c`. */
  function InCategory(c: string): ExpenseView -> bool
  {
    (x: ExpenseView) => x.category == c
  }

  /** `expenses.reduce((sum, exp) => sum + exp.amount, 0)`. */
  function TotalSpent(xs: seq<ExpenseView>): real
  {
    SumOf(xs, AmountOf)
  }

  /** The per-category amount reduce `acc[exp.category] = (acc[exp.category] || 0) + exp.amount`,
      as the object's entries in insertion order. */
  function CategoryTotals(xs: seq<ExpenseView>): seq<(string, real)>
  {
    Tally(xs, CategoryOf, AmountOf)
  }

  /** `Math.max(0, budget - spent)`: what is left of a budget, never below 0. */
  function Remaining(budget: real, spent: real): (r: real)
    ensures r >= 0.0 && r >= budget - spent
    ensures r == 0.0 || r == budget - spent
    ensures spent <= budget ==> r + spent == budget
  {
    if budget - spent > 0.0 then budget - spent else 0.0
  }
}

=== FILE: wrappers.dfy ===
/** Optional values and success/failure results, used for absent request
    fields, lookups that may miss, and handler outcomes. */
module Wrappers {

  datatype Option<+T> = None | Some(value: T) {
    /** The value, or `default` when absent (the `x || default` idiom of the source). */
    function GetOr(default: T): T {
      match this
      case Some(v) => v
      case None => default
    }
  }

  datatype Result<+T, +E> = Success(value: T) | Failure(error: E)
}
